=== FILE: README.md ===
# Dataset layer: change tracking, links and flushes

This project models the client-side dataset layer of a small data-binding library (`src/dataset.ts`).
A `DataTable` holds an ordered list of records, a field list, the links subscribed to it, and a
pending-update cache (`RecordsUpdates`). The cache reduces any sequence of inserts, updates and
deletes on a record to at most one pending operation. When the table is flushed, the cache is
turned into the parameter list sent to the service.
A `DataSetLink` is a rebindable observer of one table. A `DataTableSet` groups named tables and
flushes them in one combined request.

Every operation is a pure state transition over immutable values:

- Records are compared by identity. They live in an append-only heap (`Heap = seq<Record>`), and a
  record's identity is its position there. Fields changed after an update was registered are
  therefore still visible when the parameter list is built, as with the mutable objects of the source.
- A record's back-reference to its table is an optional table identity. The meta-info of that
  table is looked up through a `map<TableId, seq<Field>>`.
- Calls to a link's `onChange` are returned as a list of `Notice(link, event)` values, in call order.
- The adapter and its transport are abstracted to an outcome: success, or failure with a message.
  A failure leaves every table exactly as it was.

Modules: `Base` (shared types), `RecordsUpdates`, `DataTable`, `DataSetLink`, `DataTableSet`,
`TableDataSource` (only the cursor clamp after a delete), and `Scenarios` (concrete scenarios).

Most of the model follows the code as written. These points may surprise a reader, and the last
few are places where the model also carries a corrected version:

- `setDataSet` fires `Refreshed` only when the new source differs from the current one. Rebinding
  an unbound link to nothing makes no call (`Scenarios.UnboundLinkStaysSilent`).
- The table set's `applyUpdates` always calls its adapter, even when no table has anything pending.
  Only the single-table `applyUpdates` short-circuits.
- `notifyLinks` does not isolate a throwing subscriber. Callbacks are outside the model, so the
  model only records the calls, in order.
- `getUpdateParams` returns an empty list, not "nothing", when the cache is empty.
- The insert-then-delete cancellation and `removeLink` truncate their lists, the set adapter's
  `fill` never fills a table, and a successful flush also forgets updates registered while the
  request was in flight (see Findings). For these four steps the model has an as-written
  member and a corrected one. The operations built on them (`DataTable.Delete`,
  `TableDataSource.DeleteCurrent`, `DataTable.ApplyUpdates`, `DataSetLink.Unsubscribe`,
  `DataSetLink.SetDataSet`, `DataTableSet.ApplyUpdates` and `DataTableSet.Fill`) use the
  corrected step only; "## Left out" lists them.
- A response member of the set's `fill` that is `null` or `undefined` makes the loop's
  `hasOwnProperty` call throw. The fill rejects, and the tables loaded before that member stay
  loaded without their links being told.
- `fillRecords` copies every own property of an incoming row onto the new record. A row with a
  `table` property therefore overwrites the back-reference, and the record no longer points at
  its table.
- A pending record without a back-reference (one built with `new Record()` and handed to `add`)
  makes `getUpdateParams` throw before anything is sent.

## Model

| member | source | states |
|---|---|---|
| `Base.FirstIndex` | src/dataset.ts:251 | The index found holds the element and no earlier slot does; none is found exactly when the element is absent. |
| `Base.Deliver` | src/dataset.ts:256-260 | Notifying a subscriber list calls each subscriber once with the event, in subscription order. |
| `RecordsUpdates.KindName` | src/dataset.ts:133 | The kind's name, as sent to the service, maps back to the same kind. |
| `RecordsUpdates.GetUpdateIndex` | src/dataset.ts:144-148 | Returns the position of the first entry for the record (by identity). Returns none exactly when no entry mentions the record. |
| `RecordsUpdates.AddUpdateAsWritten` | src/dataset.ts:105-122 | The literal `addUpdate`. The pending kind follows the priority rule `Coalesce`. A record with an entry never gets a second one, and a new record is appended at the end. Entries before the record's own are kept. Unless the entry is cancelled, every other record's entries are kept in order, an overwritten entry stays in place, and a kind the rule keeps leaves the list unchanged. A cancellation returns nothing and cuts the list back to the earlier entries. |
| `RecordsUpdates.AsWrittenDropsLaterEntries` | src/dataset.ts:111-114 | Insert a, insert b, delete a: the as-written cache forgets b's Insert, while the intended cache keeps it. |
| `RecordsUpdates.AddUpdate` | src/dataset.ts:105-122 | Same priority rule and the one-entry-per-record invariant. The entries of every other record are unchanged and keep their order. An overwritten entry keeps its position in the list. An Insert or Delete that the rule keeps leaves the list unchanged. A fresh record gets the requested kind. |
| `RecordsUpdates.ReplaceFacts` | src/dataset.ts:118-119 | Overwriting a record's entry in place keeps it at the same position, keeps every earlier entry, and leaves the other records' entries and the one-entry-per-record invariant intact. |
| `RecordsUpdates.AddUpdateKeepsOthers` | src/dataset.ts:105-122 | Registering an update for one record never changes what is pending for another record. |
| `RecordsUpdates.Clear` | src/dataset.ts:101-103 | After `clear` nothing is pending for any record. |
| `RecordsUpdates.UpdateParams` | src/dataset.ts:125-142 | One element per pending entry, in list order. Each element carries its kind's name. Its `data` holds exactly the record's own fields whose names appear in its table's meta-info, with the record's current values. |
| `RecordsUpdates.GetUpdateParams` | src/dataset.ts:125-142 | The two nested loops of `getUpdateParams` compute exactly that parameter list. |
| `DataTable.GetMetaInfo` | src/dataset.ts:237-242 | A record class's non-empty declared meta-info wins. Otherwise the fields inferred by the last fill are used. |
| `DataTable.AddLink` | src/dataset.ts:246-248 | Adds one more subscription of the link after the existing ones. Nothing else changes. |
| `DataTable.RemoveLinkAsWritten` | src/dataset.ts:250-254 | The literal `removeLink`. The result is a prefix of the old list, the link is gone, and an absent link changes nothing. The list is cut at the link's first position. |
| `DataTable.RemoveLinkAsWrittenDropsOthers` | src/dataset.ts:250-254 | Removing the first of two links as written also unsubscribes the second. The intended removal keeps the second. |
| `DataTable.RemoveLink` | src/dataset.ts:250-254 | Exactly the first subscription of the link is dropped: the links before and after it stay, in order. An absent link changes nothing. |
| `DataTable.NotifyLinks` | src/dataset.ts:256-260 | Every subscriber is called once with the event, in subscription order. |
| `DataTable.CreateRecord` | src/dataset.ts:262-270 | Allocates a new record whose back-reference is this table. The new record is in neither the record list nor the cache, and existing records are untouched. |
| `DataTable.Add` | src/dataset.ts:216-223 | Appends exactly one record at the end and registers Insert for it under the priority rule. A record built by `add` itself ends up pending as Insert. Other pending entries are unchanged. Every link is told Refreshed. |
| `DataTable.Delete` | src/dataset.ts:225-230 | Removes exactly the record at the index and keeps the others in order. Registers Delete under the priority rule, leaves other pending entries unchanged, and tells every link Refreshed. |
| `DataTable.Update` | src/dataset.ts:232-235 | Leaves the record list unchanged. Registers Update under the priority rule, leaves other pending entries unchanged, and tells every link Refreshed. |
| `DataTable.AddThenDeleteRestores` | src/dataset.ts:216-230 | Deleting the record that `add` just built gives back the original table: same records and same cache. |
| `DataTable.AddKeepsValid` | src/dataset.ts:216-223 | `add` keeps every mentioned record allocated and keeps one cache entry per record. |
| `DataTable.DeleteKeepsValid` | src/dataset.ts:225-230 | `delete` keeps every mentioned record allocated and keeps one cache entry per record. |
| `DataTable.UpdateKeepsValid` | src/dataset.ts:232-235 | `update` of an allocated record keeps every mentioned record allocated and keeps one cache entry per record. |
| `DataTable.AddKeepsOwned` | src/dataset.ts:216-223 | `add` keeps every record of the table pointing back at it, when the given record (if any) already points at this table. A record built by `add` always does. |
| `DataTable.AddForeignBreaksOwned` | src/dataset.ts:216-223 | `add` does not check ownership: adding a record that points at another table, or at none, breaks the invariant. |
| `DataTable.DeleteKeepsOwned` | src/dataset.ts:225-230 | `delete` keeps every record of the table pointing back at it. |
| `DataTable.UpdateKeepsOwned` | src/dataset.ts:232-235 | `update` keeps every record of the table pointing back at it. |
| `DataTable.Assign` | src/dataset.ts:289-292 | Copying an incoming object's own properties gives each property's last value. Fields the object lacks keep their previous values. |
| `DataTable.ObjectFields` | src/dataset.ts:284 | The inferred field list has one descriptor per own property of the first record, in order. |
| `DataTable.FillRecords` | src/dataset.ts:278-296 | Builds one new record per incoming row, in order, carrying every incoming own field. Each record points back at this table unless its row has a `table` property, which overwrites the back-reference. Nothing stays pending. The fields come from the first row and are empty when there are no rows. Older records in the heap are untouched. |
| `DataTable.FillRecordsOwned` | src/dataset.ts:288-293 | After a fill, every record points back at the table exactly when no incoming row has a `table` property. |
| `DataTable.AdapterFill` | src/dataset.ts:326-332 | A failed call rejects with its message, and a response whose `records` is absent or falsy rejects with the no-data message. Either way nothing changes. Otherwise the result is exactly `fillRecords` of the response. |
| `DataTable.Fill` | src/dataset.ts:272-276 | A failed call, or a response without `records`, is rejected and changes nothing. Otherwise the heap and table are exactly what `fillRecords` makes of the response, nothing is pending, and every link is told Refreshed. |
| `DataTable.ApplyUpdates` | src/dataset.ts:298-341 | With nothing pending, the adapter is never called and nothing changes. A pending record without a back-reference makes the call throw before anything is sent. Otherwise the parameter list is sent, and the table's own records carry exactly their fields named in the table's current meta-info. On success the sent entries leave the cache, nothing stays pending, and links are told Updated. On failure nothing changes. |
| `DataTable.Unsent` | src/dataset.ts:338-340 | Keeps exactly the entries that were not sent. When every entry was sent, nothing is left. |
| `DataTable.CompleteFlushAsWritten` | src/dataset.ts:338-340 | The success handler as written: the whole cache is emptied and nothing else about the table changes. |
| `DataTable.CompleteFlush` | src/dataset.ts:338-340 | The intended success handler: exactly the entries that were not sent stay pending, and nothing else changes. When nothing happened during the request, the cache ends empty. |
| `DataTable.CompleteFlushKeepsUnsent` | src/dataset.ts:334-341 | A record whose pending entry was not part of the request keeps its pending kind after the intended completion. |
| `DataTable.FlushClearsInFlightUpdates` | src/dataset.ts:334-341 | An update registered while a flush is in flight is lost by the completion as written and kept by the intended completion. |
| `DataSetLink.Unsubscribe` | src/dataset.ts:172-173 | Drops the first subscription of the link from its old table, as the corrected `DataTable.RemoveLink` does: the other links keep their order. No other table changes. |
| `DataSetLink.Subscribe` | src/dataset.ts:175-176 | Appends one subscription of the link behind the new table's subscribers, exactly as `addLink` does. No other table changes. |
| `DataSetLink.SetDataSet` | src/dataset.ts:170-179 | Rebinding to the current source does nothing. Rebinding to a different source fires exactly one Refreshed, on this link only. The old table loses the link's first subscription, with the other links in order. The new table gets the link appended behind its subscribers. Unrelated tables are untouched. |
| `DataSetLink.SetDataSetKeepsRegistered` | src/dataset.ts:170-179 | If the link was subscribed exactly once to its source and nowhere else, that still holds after rebinding. |
| `DataTableSet.IndexByName` | src/dataset.ts:428-432 | Finds the first table with the name; finds none exactly when no table has it. |
| `DataTableSet.TableByName` | src/dataset.ts:428-432 | Returns the first table with that name. Returns nothing exactly when no table has the name. |
| `DataTableSet.MetaMap` | src/dataset.ts:130 | A back-reference can be resolved for exactly the tables of the set. |
| `DataTableSet.MetaMapValues` | src/dataset.ts:130 | With distinct identities, every table's back-reference resolves to the meta-info that table currently reports. |
| `DataTableSet.MetaMapAgrees` | src/dataset.ts:130 | With distinct identities, the set's own lookup resolves every table's back-reference to that table's current meta-info. |
| `DataTableSet.Payload` | src/dataset.ts:482-486 | Its keys are exactly the names of the tables with at least one pending entry. |
| `DataTableSet.PendingNamesSnoc` | src/dataset.ts:483-485 | One more table adds its name to the keys exactly when it has something pending. |
| `DataTableSet.PayloadValues` | src/dataset.ts:482-486 | With distinct names, each key carries its own table's parameter list. A later table never overwrites an earlier one. |
| `DataTableSet.FlushPayload` | src/dataset.ts:481-486 | When no pending record lacks a back-reference, every pending record can be serialised. The combined payload is keyed by exactly the tables with pending updates, and each key carries that table's parameter list. |
| `DataTableSet.NotifyAll` | src/dataset.ts:445-446 | Notifying the tables one after another is one in-order notification of all their links. |
| `DataTableSet.ClearAll` | src/dataset.ts:488-490 | Every table's flush completes with all its entries sent: its cache is emptied, and nothing else about any table changes. |
| `DataTableSet.ApplyUpdates` | src/dataset.ts:443-448 | A pending record without a back-reference in any table makes the call throw: nothing is sent and nothing changes. Otherwise the combined payload is always sent. On success every table's cache is emptied, nothing else changes, and every link is told Updated. On failure all tables keep their pending updates. |
| `DataTableSet.Fill` | src/dataset.ts:435-440 | A failed adapter call changes nothing and calls no link. A `null` or `undefined` member rejects and calls no link, keeping what was loaded before it. Otherwise every table tells its links Refreshed, in table order. Every table the response does not name is unchanged. With distinct keys, each named table reached before any such member holds one new, distinct record per row of its member, each built from that row, with the first row's fields and nothing pending. |
| `DataTableSet.FirstFault` | src/dataset.ts:472-474 | Finds the first member on which the loop as written throws: one that is `null` or `undefined`, or one that carries `records` under a key naming no table. No earlier member throws, and none is found exactly when no member throws. |
| `DataTableSet.AdapterFillAsWritten` | src/dataset.ts:469-479 | The set adapter's `fill` as written. It never changes a table. It rejects exactly when some member is `null` or `undefined`, or carries `records` under an unknown key (it then calls the unset `dataTable`). The error is that of the first such member. |
| `DataTableSet.AdapterFillAsWrittenSkipsKnownTable` | src/dataset.ts:471-474 | Given rows for the set's only table, the adapter as written reports success but loads nothing. The intended adapter loads every row. |
| `DataTableSet.NullMemberRejectsAfterLoading` | src/dataset.ts:472-476 | A `null` member behind one that fills the set's only table: the intended adapter loads the rows and still rejects, and the adapter as written rejects having loaded nothing. |
| `DataTableSet.AdapterFill` | src/dataset.ts:469-479 | The intended set adapter's `fill`. A failed call changes nothing. Otherwise it rejects exactly when some member is `null` or `undefined`. A table no member names is left exactly as it was. With distinct keys, each table named before any such member holds one new, distinct record per row of its member, each the record `fillRecords` builds from that row, with the first row's fields and nothing pending. Names, identities and links never change, and the heap only grows. |
| `DataTableSet.FillEntries` | src/dataset.ts:472-476 | Handing members to their tables keeps the number of tables and every table's name, identity and links, and only appends to the heap. It rejects exactly when some member is `null` or `undefined`. |
| `DataTableSet.FillTarget` | src/dataset.ts:473 | A member is handed to a table of the set only when it carries `records`. |
| `DataTableSet.FillTargetAfterFill` | src/dataset.ts:473-474 | Filling a table does not change which table any later key finds. |
| `DataTableSet.FillEntriesKeepsUnnamed` | src/dataset.ts:472-476 | A table that no member names is left exactly as it was. |
| `DataTableSet.FillEntriesRefills` | src/dataset.ts:472-476 | With distinct keys, each table named before any `null` or `undefined` member ends with one new, distinct record per incoming row, each built from its row and stored in the final heap, the fields of the first row, and nothing pending. |
| `DataTableSet.FillEntriesRefillsFirst` | src/dataset.ts:472-476 | The table the first member names ends up holding new, distinct records built from that member's rows. |
| `DataTableSet.IndexByNameOnNames` | src/dataset.ts:428-432 | The table a name finds depends only on the tables' names. |
| `DataTableSet.AllLinksSameLinks` | src/dataset.ts:437-438 | Sets whose tables have the same links notify the same links in the same order. |
| `TableDataSource.DeleteCurrent` | src/dataset.ts:385-393 | Deletes the current record from the table. The cursor stays a valid index, or becomes -1 once the table is empty. It moves back by one, and a cursor move is announced, exactly when the last record was deleted. |
| `Scenarios.UpdateThenDelete` | src/dataset.ts:225-235 | Update then delete of the only record leaves a single pending Delete and an empty table. |
| `Scenarios.AddThenDelete` | src/dataset.ts:216-230 | Add then delete on an empty table leaves nothing pending and no records. |
| `Scenarios.OrdersSetFlushable` | src/dataset.ts:481-486 | A set of "orders" and "customers" whose pending record belongs to "orders" can build its payload with its own lookup. |
| `Scenarios.OrdersOnlyPayload` | src/dataset.ts:481-486 | With only "orders" pending, the combined payload has only an `orders` key. |
| `Scenarios.OrdersOnlyFlush` | src/dataset.ts:487-491 | With only "orders" pending, a successful flush leaves both tables with nothing pending. |
| `Scenarios.UnboundLinkStaysSilent` | src/dataset.ts:170-171 | Rebinding an unbound link to nothing makes no call. |

## Left out

- Adapters' `execute`, the service lookup and the promises (`DataTableAdapter`, `DataTableSetAdapter`): transport and asynchrony, abstracted to an outcome parameter.
- `TableDataSource`, apart from the cursor clamp in `delete`: it builds on the cursor source in `data.ts`, which is not part of this model. `TableDataSource.DeleteCurrent` assumes two things about `data.ts`: that `setRecords`, run from the table's Refreshed call during the delete, makes the source's `_records` the table's record list, and that it leaves `_curIndex` alone. Its `dataTable` setter also never updates the link's own source. The states Browse/Edit/Insert, `post`, `insert`, `cancel` and auto-post come from `data.ts` and are not modelled either.
- `RecordSetSource.getObjectFields` is in `data.ts`, which is not part of this model; `DataTable.ObjectFields` takes the first record's own property names, in order.
- Field descriptors carry only their name. The data type, size and required flag are never read by this layer.
- The static `metaInfo` lookup and `utils.isEmptyObject` become an optional record class with a possibly empty meta-info list. A record class also names the own fields that its constructor gives new instances.
- JavaScript numbers are modelled as unbounded integers. Field values are opaque to this layer.
- Callback bodies and exceptions thrown by subscribers: outside the layer; only the calls are recorded.
- The table constructor (name, default adapter, registration in an owning set): construction, not behaviour; a set is modelled directly as its list of tables.
- Concurrent in-flight flushes: each transition is atomic here. The source's `clear()` on success empties the whole cache, so any `add`, `update` or `delete` registered while the request is in flight is lost (see Findings). The model keeps that as-written step beside the intended one, and it does not interleave two overlapping flushes.
- DataTable.Delete: registers the Delete through the corrected `RecordsUpdates.AddUpdate`. Deleting a record whose pending entry is an Insert cancels only that entry, while the source (src/dataset.ts:227 into :113) also drops every later entry; `RecordsUpdates.AddUpdateAsWritten` models that, but no as-written `Delete` is built on it.
- DataSetLink.Unsubscribe: drops the link through the corrected `DataTable.RemoveLink`. The source (src/dataset.ts:173 into :253) also drops every link subscribed after it; `DataTable.RemoveLinkAsWritten` models that, but no as-written `Unsubscribe` is built on it.
- DataSetLink.SetDataSet: built on the corrected `DataSetLink.Unsubscribe`, so rebinding a link away from a table with links `[l, m]` keeps `m` subscribed, which the source does not.
- TableDataSource.DeleteCurrent: built on `DataTable.Delete`, and so on the corrected `RecordsUpdates.AddUpdate`. Deleting the current record while its pending entry is an Insert keeps the later entries, which the source drops (src/dataset.ts:387 into :113).
- DataTableSet.Fill: built on the corrected `DataTableSet.AdapterFill`. The source's set `fill` fills no table (src/dataset.ts:473); `DataTableSet.AdapterFillAsWritten` models that, but no as-written `Fill` is built on it.
- DataTable.ApplyUpdates: on success removes only the entries it sent, through the corrected `DataTable.CompleteFlush`, and so does `DataTableSet.ApplyUpdates`. The source empties the whole cache (src/dataset.ts:339 and :489); `DataTable.CompleteFlushAsWritten` models that step.
- DataTable.CompleteFlush: an entry equal to a sent one leaves the cache. A record already pending as Update and updated again while the request is in flight keeps the same entry, so its newer field values are not sent again. Telling the two apart would need a revision number that the cache does not keep.
- DataTable.Delete: requires an index inside the record list. The source does not check it: an index past the end registers a Delete for `undefined`, and a negative index such as -1 removes the last record through `splice(-1, 1)` while registering `undefined`. Those calls are not modelled.
- RecordsUpdates.UpdateParams: requires every pending record to resolve its table's meta-info, and so does `RecordsUpdates.GetUpdateParams`. The throw on a record without a back-reference (`rec.table.getMetaInfo` at src/dataset.ts:130) is modelled one level up, by `DataTable.ApplyUpdates` and `DataTableSet.ApplyUpdates` returning an error with nothing sent.
- DataTable.ApplyUpdates: requires a lookup `meta` that knows every table a pending record points at, with this table's entry equal to its current meta-info. In the source every table object answers `getMetaInfo` itself. A record owned by a table outside the set is serialised with that table's entry in `meta`, which `DataTableSet.ApplyUpdates` and `DataTableSet.FlushPayload` also require.
- The texts of thrown errors are engine-specific. `DataTable.NoBackReferenceMessage` and `DataTableSet.UndefinedTableMessage` stand for them.
- A record's back-reference is kept outside its field bag. A meta-info field literally named `table` would serialise the table object in the source; the model serialises the bag's value instead.
- DataTable.Update: a record that is not allocated is accepted, as in the source, but validity is only proved when the record exists.
- `src/service.ts`, `src/ext.controls.ts`, `examples/tabs/tabs.ts` and `src/php/auth.php`: network I/O, DOM rendering and server-side code.

## Findings

| source | as written | input that shows it | evidently intended | confidence | as-written member | corrected member |
|---|---|---|---|---|---|---|
| src/dataset.ts:113 | `this.updates.splice(idx)` removes the cancelled Insert entry and every entry after it | pending `[Insert a, Insert b]`, then `addUpdate(a, Delete)`: b's Insert is lost and b is never sent | `splice(idx, 1)`: remove only a's entry | high (not executed) | `RecordsUpdates.AddUpdateAsWritten`, `RecordsUpdates.AsWrittenDropsLaterEntries` | `RecordsUpdates.AddUpdate` |
| src/dataset.ts:253 | `this.links.splice(num)` removes the link and every link subscribed after it | links `[a, b]`, then `removeLink(a)`: b is no longer notified | `splice(num, 1)`: remove only that link | high (not executed) | `DataTable.RemoveLinkAsWritten`, `DataTable.RemoveLinkAsWrittenDropsOthers` | `DataTable.RemoveLink` |
| src/dataset.ts:473 | `dataTable === tableSet.tableByName(table)` compares with a variable that is never assigned | a response `{orders: {records: [r]}}` for a set holding "orders": nothing is filled and the fill succeeds; under an unknown key it throws on `undefined.fillRecords` | `(dataTable = tableSet.tableByName(table))`: fill the table of that name, if any | high (not executed) | `DataTableSet.AdapterFillAsWritten`, `DataTableSet.AdapterFillAsWrittenSkipsKnownTable` | `DataTableSet.AdapterFill` |
| src/dataset.ts:339 | `table.recordsUpdates.clear()` on success empties the whole cache, including entries registered after the parameters were built | pending `[Update a]`, `applyUpdates()` starts, then `update(b)` before the response: on success b's Update is gone although it was never sent | remove only the entries that were sent (the same applies to the set adapter at src/dataset.ts:489) | medium (not executed) | `DataTable.CompleteFlushAsWritten`, `DataTable.FlushClearsInFlightUpdates` | `DataTable.CompleteFlush` |

=== FILE: base.dfy ===
/** Shared vocabulary of the dataset layer: optional values, record identities,
    the record heap, field descriptors and change notifications. */
module Base {

  datatype Option<+T> = None | Some(value: T)

  /** What a remote call through an adapter came back with. */
  datatype Outcome = Success | Failure(message: string)

  /** Records, tables and links are compared by identity; identities are numbers here. */
  type RecordId = nat
  type TableId = nat
  type LinkId = nat

  type FieldName = string

  /** A field value as it travels to and from the service. */
  datatype Value = Null | Bool(b: bool) | Number(n: int) | Text(s: string)

  /** The own properties of a record object. */
  type FieldBag = map<FieldName, Value>

  /** A field descriptor; the core only ever reads its name. */
  datatype Field = Field(fieldName: FieldName)

  /** A record object: its owning table (unset for a record built outside a table) and its own fields. */
  datatype Record = Record(table: Option<TableId>, data: FieldBag)

  /** Every record object ever allocated; a record's identity is its position, so allocation appends. */
  type Heap = seq<Record>

  /** Events a data set raises towards its links. */
  datatype EventType = Refreshed | Updated

  /** One call of `onChange(eventType)` on the link `link`. */
  datatype Notice = Notice(link: LinkId, eventType: EventType)

  /** The names carried by a list of field descriptors. */
  function NameSet(fields: seq<Field>): set<FieldName>
  {
    set f | f in fields :: f.fieldName
  }

  /** Position of the first occurrence of `x` in `s` (the `indexOf` of a list). */
  function FirstIndex<T(==)>(s: seq<T>, x: T): (r: Option<nat>)
    ensures r.Some? ==> r.value < |s| && s[r.value] == x && x !in s[..r.value]
    ensures r.None? <==> x !in s
  {
    if |s| == 0 then None
    else if s[0] == x then Some(0)
    else
      match FirstIndex(s[1..], x)
      case None => None
      case Some(i) =>
        assert s[..i + 1] == [s[0]] + s[1..][..i];
        Some(i + 1)
  }

  /** The calls made when every link of `links` is notified of `eventType`, in subscription order. */
  function Deliver(links: seq<LinkId>, eventType: EventType): (notices: seq<Notice>)
    ensures |notices| == |links|
    ensures forall i | 0 <= i < |links| :: notices[i] == Notice(links[i], eventType)
  {
    if |links| == 0 then [] else [Notice(links[0], eventType)] + Deliver(links[1..], eventType)
  }

  /** Notifying two subscriber lists one after the other is notifying their concatenation. */
  lemma DeliverAppend(a: seq<LinkId>, b: seq<LinkId>, eventType: EventType)
    ensures Deliver(a + b, eventType) == Deliver(a, eventType) + Deliver(b, eventType)
  {
  }
}

=== FILE: data_set_link.dfy ===
/** A rebindable observer (`DataSetLink` in src/dataset.ts): it is subscribed to at most one
    table and is told `Refreshed` whenever it is pointed somewhere else. */
module DataSetLink {
  import opened Base
  import opened DataTable

  datatype Link = Link(id: LinkId, dataSet: Option<TableId>)

  /** The link is subscribed exactly once to its current table and to no other table. */
  ghost predicate Registered(l: Link, tables: map<TableId, Table>)
  {
    forall tid | tid in tables :: multiset(tables[tid].links)[l.id] == (if l.dataSet == Some(tid) then 1 else 0)
  }

  /** The subscription multisets of two tables agree on every link except `id`. */
  ghost predicate SameExcept(a: Table, b: Table, id: LinkId)
  {
    a == b.(links := a.links) && multiset(a.links)[id := 0] == multiset(b.links)[id := 0]
  }

  /** `tables` with one subscription of `id` dropped from the table `source`, if set. */
  function Unsubscribe(tables: map<TableId, Table>, source: Option<TableId>, id: LinkId): (r: map<TableId, Table>)
    requires source.Some? ==> source.value in tables
    ensures r.Keys == tables.Keys
    ensures forall tid | tid in tables :: SameExcept(r[tid], tables[tid], id)
    ensures forall tid | tid in tables && Some(tid) != source :: r[tid] == tables[tid]
    ensures source.Some? ==>
              var n := multiset(tables[source.value].links)[id];
              multiset(r[source.value].links)[id] == if n == 0 then 0 else n - 1
    ensures source.Some? ==> r[source.value] == RemoveLink(tables[source.value], id)
  {
    match source
    case None => tables
    case Some(tid) => tables[tid := RemoveLink(tables[tid], id)]
  }

  /** `tables` with one more subscription of `id` on the table `target`, if set. */
  function Subscribe(tables: map<TableId, Table>, target: Option<TableId>, id: LinkId): (r: map<TableId, Table>)
    requires target.Some? ==> target.value in tables
    ensures r.Keys == tables.Keys
    ensures forall tid | tid in tables :: SameExcept(r[tid], tables[tid], id)
    ensures forall tid | tid in tables && Some(tid) != target :: r[tid] == tables[tid]
    ensures target.Some? ==> multiset(r[target.value].links)[id] == multiset(tables[target.value].links)[id] + 1
    ensures target.Some? ==> r[target.value] == AddLink(tables[target.value], id)
  {
    match target
    case None => tables
    case Some(tid) => tables[tid := AddLink(tables[tid], id)]
  }

  /** The rebound link, the tables after the subscription change, and the link calls. */
  datatype Rebind = Rebind(link: Link, tables: map<TableId, Table>, notices: seq<Notice>)

  /** `setDataSet`: pointing a link at the table it already has does nothing. Otherwise the link
      unsubscribes from its old table (its first subscription there is dropped, the others keep
      their order), subscribes behind the new table's subscribers and is told `Refreshed`
      exactly once; every other subscription stays as it was. */
  function SetDataSet(l: Link, value: Option<TableId>, tables: map<TableId, Table>): (r: Rebind)
    requires l.dataSet.Some? ==> l.dataSet.value in tables
    requires value.Some? ==> value.value in tables
    ensures l.dataSet == value ==> r == Rebind(l, tables, [])
    ensures l.dataSet != value ==> r.link == l.(dataSet := value) && r.notices == [Notice(l.id, Refreshed)]
    ensures r.tables.Keys == tables.Keys
    ensures forall tid | tid in tables :: SameExcept(r.tables[tid], tables[tid], l.id)
    ensures forall tid | tid in tables && Some(tid) != l.dataSet && Some(tid) != value :: r.tables[tid] == tables[tid]
    ensures l.dataSet != value && l.dataSet.Some? ==>
              r.tables[l.dataSet.value] == RemoveLink(tables[l.dataSet.value], l.id)
    ensures l.dataSet != value && value.Some? ==>
              r.tables[value.value] == tables[value.value].(links := tables[value.value].links + [l.id])
  {
    if l.dataSet == value then Rebind(l, tables, [])
    else
      var detached := Unsubscribe(tables, l.dataSet, l.id);
      var attached := Subscribe(detached, value, l.id);
      assert l.dataSet.Some? ==> attached[l.dataSet.value] == detached[l.dataSet.value];
      assert value.Some? ==> detached[value.value] == tables[value.value];
      assert forall tid | tid in tables :: SameExcept(attached[tid], tables[tid], l.id) by {
        forall tid | tid in tables ensures SameExcept(attached[tid], tables[tid], l.id) {
          SameExceptTransitive(attached[tid], detached[tid], tables[tid], l.id);
        }
      }
      Rebind(l.(dataSet := value), attached, [Notice(l.id, Refreshed)])
  }

  lemma SameExceptTransitive(a: Table, b: Table, c: Table, id: LinkId)
    requires SameExcept(a, b, id) && SameExcept(b, c, id)
    ensures SameExcept(a, c, id)
  {
  }

  /** Rebinding keeps the link subscribed exactly once to its current table and nowhere else. */
  lemma SetDataSetKeepsRegistered(l: Link, value: Option<TableId>, tables: map<TableId, Table>)
    requires l.dataSet.Some? ==> l.dataSet.value in tables
    requires value.Some? ==> value.value in tables
    requires Registered(l, tables)
    ensures var r := SetDataSet(l, value, tables); Registered(r.link, r.tables)
  {
  }
}

=== FILE: data_table.dfy ===
/** A data set holding one table (`DataTable` in src/dataset.ts): an ordered list of records,
    a field list, a pending-update cache and the links subscribed to it. Every operation is a
    state transition that also returns the `onChange` calls it makes on the links. */
module DataTable {
  import opened Base
  import opened RecordsUpdates

  /** The record class a table instantiates: its static meta-info and the own fields a freshly
      constructed instance already carries. */
  datatype RecordClass = RecordClass(metaInfo: seq<Field>, initial: FieldBag)

  datatype Table = Table(
    id: TableId,
    tableName: string,
    recordFactory: Option<RecordClass>,
    fields: seq<Field>,
    records: seq<RecordId>,
    recordsUpdates: Updates,
    links: seq<LinkId>)

  /** Every record the table mentions exists, and the cache keeps one entry per record. */
  ghost predicate Valid(heap: Heap, t: Table)
  {
    && (forall i | 0 <= i < |t.records| :: t.records[i] < |heap|)
    && (forall i | 0 <= i < |t.recordsUpdates| :: t.recordsUpdates[i].record < |heap|)
    && AtMostOnePerRecord(t.recordsUpdates)
  }

  /** The table's ownership invariant: every record in the list points back at this table. */
  ghost predicate Owned(heap: Heap, t: Table)
  {
    forall i | 0 <= i < |t.records| :: t.records[i] < |heap| && heap[t.records[i]].table == Some(t.id)
  }

  /** A state change of the table and the link calls it made. */
  datatype Mutation = Mutation(table: Table, notices: seq<Notice>)

  /** `getMetaInfo`: the record class's declared fields when it declares any, else the fields
      found by the last fill. */
  function GetMetaInfo(t: Table): (fields: seq<Field>)
    ensures t.recordFactory.Some? && |t.recordFactory.value.metaInfo| > 0 ==> fields == t.recordFactory.value.metaInfo
    ensures t.recordFactory.None? || |t.recordFactory.value.metaInfo| == 0 ==> fields == t.fields
  {
    match t.recordFactory
    case Some(c) => if |c.metaInfo| > 0 then c.metaInfo else t.fields
    case None => t.fields
  }

  // Links

  /** `addLink`: the link is subscribed once more, behind the existing subscribers. */
  function AddLink(t: Table, link: LinkId): (r: Table)
    ensures t.links <= r.links
    ensures multiset(r.links) == multiset(t.links) + multiset{link}
    ensures r == t.(links := r.links)
  {
    t.(links := t.links + [link])
  }

  /** `removeLink` exactly as written: `splice(num)` cuts the list at the link's position, so
      the link and every subscriber behind it are dropped. */
  function RemoveLinkAsWritten(t: Table, link: LinkId): (r: Table)
    ensures r.links <= t.links
    ensures link !in r.links
    ensures link !in t.links ==> r == t
    ensures link in t.links ==> r.links == t.links[..FirstIndex(t.links, link).value]
    ensures r == t.(links := r.links)
  {
    match FirstIndex(t.links, link)
    case None => t
    case Some(num) => t.(links := t.links[..num])
  }

  /** Removing the first of two links as written also unsubscribes the second, while the
      intended removal keeps it. */
  lemma RemoveLinkAsWrittenDropsOthers(t: Table, a: LinkId, b: LinkId)
    requires t.links == [a, b] && a != b
    ensures RemoveLinkAsWritten(t, a).links == []
    ensures RemoveLink(t, a).links == [b]
  {
  }

  /** `removeLink` with the evidently intended `splice(num, 1)`: one subscription of the link
      is dropped and nothing else; removing an absent link changes nothing. */
  function RemoveLink(t: Table, link: LinkId): (r: Table)
    ensures multiset(r.links) == multiset(t.links) - multiset{link}
    ensures link in t.links ==>
              var num := FirstIndex(t.links, link).value;
              r.links == t.links[..num] + t.links[num + 1..]
    ensures link !in t.links ==> r == t
    ensures r == t.(links := r.links)
  {
    match FirstIndex(t.links, link)
    case None => t
    case Some(num) =>
      assert t.links == t.links[..num] + [link] + t.links[num + 1..];
      t.(links := t.links[..num] + t.links[num + 1..])
  }

  /** `notifyLinks`: every subscriber is called with the event, in subscription order. */
  function NotifyLinks(t: Table, eventType: EventType): (notices: seq<Notice>)
    ensures |notices| == |t.links|
    ensures forall i | 0 <= i < |t.links| :: notices[i] == Notice(t.links[i], eventType)
  {
    Deliver(t.links, eventType)
  }

  // Records

  /** A record freshly allocated for the table, and the heap holding it. */
  datatype Created = Created(heap: Heap, record: RecordId)

  function InitialData(t: Table): FieldBag
  {
    match t.recordFactory
    case Some(c) => c.initial
    case None => map[]
  }

  /** `createRecord`: a new record object pointing back at this table; the table itself is not
      touched, so the record is in neither `records` nor the cache. */
  function CreateRecord(heap: Heap, t: Table): (r: Created)
    ensures |r.heap| == |heap| + 1 && r.heap[..|heap|] == heap
    ensures r.record == |heap| && r.heap[r.record].table == Some(t.id)
    ensures Valid(heap, t) ==> r.record !in t.records && PendingKind(t.recordsUpdates, r.record).None?
    ensures Valid(heap, t) ==> Valid(r.heap, t)
  {
    Created(heap + [Record(Some(t.id), InitialData(t))], |heap|)
  }

  /** The result of `add`: the heap (one record longer when the table built the record), the
      table, the record added, and the link calls. */
  datatype Insertion = Insertion(heap: Heap, table: Table, record: RecordId, notices: seq<Notice>)

  /** `add`: builds a record when none is given, registers an Insert for it, appends it after
      all existing records and tells every link the table was refreshed. */
  function Add(heap: Heap, t: Table, record: Option<RecordId>): (r: Insertion)
    requires record.Some? ==> record.value < |heap|
    ensures r.table.records == t.records + [r.record]
    ensures record.Some? ==> r.record == record.value && r.heap == heap
    ensures record.None? ==> |r.heap| == |heap| + 1 && r.heap[..|heap|] == heap && r.record == |heap| && r.heap[r.record].table == Some(t.id)
    ensures PendingKind(r.table.recordsUpdates, r.record) == Coalesce(PendingKind(t.recordsUpdates, r.record), Insert)
    ensures record.None? && Valid(heap, t) ==> PendingKind(r.table.recordsUpdates, r.record) == Some(Insert)
    ensures Others(r.table.recordsUpdates, r.record) == Others(t.recordsUpdates, r.record)
    ensures r.notices == NotifyLinks(t, Refreshed)
    ensures r.table == t.(records := r.table.records, recordsUpdates := r.table.recordsUpdates)
  {
    var c := if record.None? then CreateRecord(heap, t) else Created(heap, record.value);
    var t' := t.(recordsUpdates := AddUpdate(t.recordsUpdates, c.record, Insert).updates);
    var t'' := t'.(records := t.records + [c.record]);
    Insertion(c.heap, t'', c.record, NotifyLinks(t'', Refreshed))
  }

  /** `delete`: registers a Delete for the record at `index`, removes exactly that record
      keeping the others in order, and tells every link the table was refreshed. The caller
      must pass a valid index. */
  function Delete(t: Table, index: nat): (r: Mutation)
    requires index < |t.records|
    ensures |r.table.records| == |t.records| - 1
    ensures forall j | 0 <= j < index :: r.table.records[j] == t.records[j]
    ensures forall j | index <= j < |r.table.records| :: r.table.records[j] == t.records[j + 1]
    ensures AtMostOnePerRecord(t.recordsUpdates) ==>
              PendingKind(r.table.recordsUpdates, t.records[index]) == Coalesce(PendingKind(t.recordsUpdates, t.records[index]), UpdateKind.Delete)
    ensures Others(r.table.recordsUpdates, t.records[index]) == Others(t.recordsUpdates, t.records[index])
    ensures r.notices == NotifyLinks(t, Refreshed)
    ensures r.table == t.(records := r.table.records, recordsUpdates := r.table.recordsUpdates)
  {
    var rec := t.records[index];
    var t' := t.(recordsUpdates := AddUpdate(t.recordsUpdates, rec, UpdateKind.Delete).updates);
    var t'' := t'.(records := t.records[..index] + t.records[index + 1..]);
    Mutation(t'', NotifyLinks(t'', Refreshed))
  }

  /** `update`: registers an Update for `record` (the caller vouches that it belongs to the
      table), leaves the record list alone and tells every link the table was refreshed. */
  function Update(t: Table, record: RecordId): (r: Mutation)
    ensures r.table.records == t.records
    ensures PendingKind(r.table.recordsUpdates, record) == Coalesce(PendingKind(t.recordsUpdates, record), UpdateKind.Update)
    ensures Others(r.table.recordsUpdates, record) == Others(t.recordsUpdates, record)
    ensures r.notices == NotifyLinks(t, Refreshed)
    ensures r.table == t.(recordsUpdates := r.table.recordsUpdates)
  {
    var t' := t.(recordsUpdates := AddUpdate(t.recordsUpdates, record, UpdateKind.Update).updates);
    Mutation(t', NotifyLinks(t', Refreshed))
  }

  /** Deleting the record `add` just built undoes the `add`: the record list and the cache are
      exactly what they were before. */
  lemma AddThenDeleteRestores(heap: Heap, t: Table)
    requires Valid(heap, t)
    ensures var a := Add(heap, t, None);
            var d := Delete(a.table, |t.records|);
            d.table == t
  {
  }

  /** `add`, `delete` and `update` keep a valid table valid. */
  lemma AddKeepsValid(heap: Heap, t: Table, record: Option<RecordId>)
    requires Valid(heap, t) && (record.Some? ==> record.value < |heap|)
    ensures var r := Add(heap, t, record); Valid(r.heap, r.table)
  {
  }

  lemma DeleteKeepsValid(heap: Heap, t: Table, index: nat)
    requires index < |t.records| && Valid(heap, t)
    ensures Valid(heap, Delete(t, index).table)
  {
  }

  lemma UpdateKeepsValid(heap: Heap, t: Table, record: RecordId)
    requires Valid(heap, t) && record < |heap|
    ensures Valid(heap, Update(t, record).table)
  {
  }

  /** `add` keeps every record pointing back at the table, provided the record it is given
      (if any) already points at this table; one built by `add` always does. */
  lemma AddKeepsOwned(heap: Heap, t: Table, record: Option<RecordId>)
    requires Owned(heap, t)
    requires record.Some? ==> record.value < |heap| && heap[record.value].table == Some(t.id)
    ensures var r := Add(heap, t, record); Owned(r.heap, r.table)
  {
    var r := Add(heap, t, record);
    forall i | 0 <= i < |r.table.records|
      ensures r.table.records[i] < |r.heap| && r.heap[r.table.records[i]].table == Some(t.id)
    {
      if i < |t.records| {
        assert r.table.records[i] == t.records[i];
        assert r.heap[t.records[i]] == r.heap[..|heap|][t.records[i]];
      }
    }
  }

  /** Adding a record that belongs to another table breaks the invariant: `add` does not
      check ownership. */
  lemma AddForeignBreaksOwned(heap: Heap, t: Table, record: RecordId)
    requires record < |heap| && heap[record].table != Some(t.id)
    ensures !Owned(Add(heap, t, Some(record)).heap, Add(heap, t, Some(record)).table)
  {
    var r := Add(heap, t, Some(record));
    assert r.table.records[|t.records|] == record;
  }

  /** `delete` and `update` keep every record pointing back at the table. */
  lemma DeleteKeepsOwned(heap: Heap, t: Table, index: nat)
    requires index < |t.records| && Owned(heap, t)
    ensures Owned(heap, Delete(t, index).table)
  {
  }

  lemma UpdateKeepsOwned(heap: Heap, t: Table, record: RecordId)
    requires Owned(heap, t)
    ensures Owned(heap, Update(t, record).table)
  {
  }

  // Filling

  /** One incoming record object: its own properties in enumeration order. */
  type Row = seq<(FieldName, Value)>

  /** The `records` member of a fill response: `Missing` when it is absent or falsy (`null`,
      `0`, `""` and the like, which `!data.records` rejects), `NotArray` when it is present and
      truthy but not an array, `Rows` when it is an array. */
  datatype RecordsPayload = Missing | NotArray | Rows(rows: seq<Row>)

  /** The value `row` gives `name`: that of the last property with the name. */
  function LastValue(row: Row, name: FieldName): Option<Value>
  {
    if |row| == 0 then None
    else if row[|row| - 1].0 == name then Some(row[|row| - 1].1)
    else LastValue(row[..|row| - 1], name)
  }

  /** `rec[field] = value` for every own property of `row`, in order. */
  function Assign(bag: FieldBag, row: Row): (r: FieldBag)
    ensures forall name :: LastValue(row, name).Some? ==> name in r && r[name] == LastValue(row, name).value
    ensures forall name :: LastValue(row, name).None? ==> (name in r <==> name in bag)
    ensures forall name | name in bag && LastValue(row, name).None? :: r[name] == bag[name]
  {
    if |row| == 0 then bag
    else Assign(bag, row[..|row| - 1])[row[|row| - 1].0 := row[|row| - 1].1]
  }

  /** The field list inferred from a record's shape: one descriptor per own property, in order. */
  function ObjectFields(row: Row): (fields: seq<Field>)
    ensures |fields| == |row|
    ensures forall i | 0 <= i < |row| :: fields[i].fieldName == row[i].0
  {
    if |row| == 0 then [] else [Field(row[0].0)] + ObjectFields(row[1..])
  }

  /** The rows `fillRecords` instantiates: those of a non-empty array, else none. */
  function IncomingRows(records: RecordsPayload): seq<Row>
  {
    if records.Rows? then records.rows else []
  }

  /** The property that holds a record's back-reference to its table. */
  const BackReference: FieldName := "table"

  /** The record `fillRecords` builds for one row. Every own property of the row is copied onto
      the record, so a row with a `table` property overwrites the back-reference that
      `createRecord` set, and the record no longer points at any table. */
  function Instantiate(t: Table, row: Row): Record
  {
    var owner := if LastValue(row, BackReference).Some? then None else Some(t.id);
    Record(owner, Assign(InitialData(t), row))
  }

  datatype Filled = Filled(heap: Heap, table: Table)

  /** `fillRecords`: a destructive resync. Records, fields and the cache are replaced: one new
      record per incoming row, in order, carrying every incoming own field and pointing back at
      this table unless the row itself has a `table` property; the field list comes from the
      first row, and is empty when no rows arrive. */
  function FillRecords(heap: Heap, t: Table, records: RecordsPayload): (r: Filled)
    ensures var rows := IncomingRows(records);
            && |r.table.records| == |rows|
            && |r.heap| == |heap| + |rows|
            && r.heap[..|heap|] == heap
            && (forall i | 0 <= i < |rows| :: r.table.records[i] == |heap| + i)
            && (forall i | 0 <= i < |rows| :: r.heap[|heap| + i] == Instantiate(t, rows[i]))
            && (forall i | 0 <= i < |rows| ::
                  r.heap[|heap| + i].table == (if LastValue(rows[i], BackReference).Some? then None else Some(t.id)))
            && (|rows| == 0 ==> r.table.fields == [])
            && (|rows| > 0 ==> r.table.fields == ObjectFields(rows[0]))
    ensures forall rec :: PendingKind(r.table.recordsUpdates, rec).None?
    ensures r.table == t.(fields := r.table.fields, records := r.table.records, recordsUpdates := r.table.recordsUpdates)
    ensures Valid(r.heap, r.table)
  {
    var rows := IncomingRows(records);
    var built := seq(|rows|, i requires 0 <= i < |rows| => Instantiate(t, rows[i]));
    var ids := seq(|rows|, i requires 0 <= i < |rows| => |heap| + i);
    var fields := if |rows| > 0 then ObjectFields(rows[0]) else [];
    Filled(heap + built, t.(fields := fields, records := ids, recordsUpdates := Clear()))
  }

  /** What the adapter's fill came back with: a failure, or the response's `records` member. */
  datatype FillResponse = FillFailed(message: string) | Received(records: RecordsPayload)

  /** The result of `fill`: new state, link calls, and the error that rejected it, if any. */
  datatype Fetched = Fetched(heap: Heap, table: Table, notices: seq<Notice>, error: Option<string>)

  const NoDataMessage := "Service did not returned any data"

  /** After `fillRecords` every record points back at the table exactly when no incoming row
      carries a `table` property of its own. */
  lemma FillRecordsOwned(heap: Heap, t: Table, records: RecordsPayload)
    ensures var r := FillRecords(heap, t, records);
            Owned(r.heap, r.table) <==>
              forall i | 0 <= i < |IncomingRows(records)| :: LastValue(IncomingRows(records)[i], BackReference).None?
  {
    var r := FillRecords(heap, t, records);
    var rows := IncomingRows(records);
    if Owned(r.heap, r.table) {
      forall i | 0 <= i < |rows| ensures LastValue(rows[i], BackReference).None? {
        assert r.table.records[i] == |heap| + i;
      }
    }
  }

  /** What the adapter's `fill` leaves: the heap and table afterwards and the rejecting error. */
  datatype Loaded = Loaded(heap: Heap, table: Table, error: Option<string>)

  /** The table adapter's `fill`: a failed call, or a response whose `records` member is absent
      or falsy, rejects and leaves everything as it was; otherwise `fillRecords` resynchronises
      the table from the response. */
  function AdapterFill(heap: Heap, t: Table, response: FillResponse): (r: Loaded)
    ensures r.error.Some? <==> response.FillFailed? || response.records.Missing?
    ensures response.FillFailed? ==> r.error == Some(response.message)
    ensures response.Received? && response.records.Missing? ==> r.error == Some(NoDataMessage)
    ensures r.error.Some? ==> r.heap == heap && r.table == t
    ensures r.error.None? ==>
              var f := FillRecords(heap, t, response.records);
              r.heap == f.heap && r.table == f.table
  {
    match response
    case FillFailed(message) => Loaded(heap, t, Some(message))
    case Received(Missing) => Loaded(heap, t, Some(NoDataMessage))
    case Received(records) =>
      var f := FillRecords(heap, t, records);
      Loaded(f.heap, f.table, None)
  }

  /** `fill`: once the adapter has resynchronised the table, every link is told it was
      refreshed; a rejection changes nothing and calls no link. */
  function Fill(heap: Heap, t: Table, response: FillResponse): (r: Fetched)
    ensures r.error.Some? <==> response.FillFailed? || response.records.Missing?
    ensures r.error.Some? ==> r.heap == heap && r.table == t && r.notices == []
    ensures r.error.None? ==>
              var f := FillRecords(heap, t, response.records);
              r.heap == f.heap && r.table == f.table
    ensures r.error.None? ==> r.notices == NotifyLinks(t, Refreshed)
    ensures r.error.None? ==> forall rec :: PendingKind(r.table.recordsUpdates, rec).None?
    ensures r.error.None? ==> |r.table.records| == |IncomingRows(response.records)|
  {
    var loaded := AdapterFill(heap, t, response);
    if loaded.error.Some? then Fetched(heap, t, [], loaded.error)
    else Fetched(loaded.heap, loaded.table, NotifyLinks(loaded.table, Refreshed), None)
  }

  // Flushing

  /** The result of `applyUpdates`: the parameter list handed to the adapter (none when the
      adapter was not called), the new table, the link calls and the rejecting error. */
  datatype Flush = Flush(sent: Option<seq<Param>>, table: Table, notices: seq<Notice>, error: Option<string>)

  /** The error `getUpdateParams` throws on a pending record without a back-reference. */
  const NoBackReferenceMessage := "TypeError: rec.table.getMetaInfo is not a function"

  /** The entries of `u` that are not in `sent`, in order. */
  function Unsent(u: Updates, sent: Updates): (r: Updates)
    ensures forall e :: e in r <==> e in u && e !in sent
    ensures (forall i | 0 <= i < |u| :: u[i] in sent) ==> r == []
  {
    if |u| == 0 then []
    else
      assert u == [u[0]] + u[1..];
      (if u[0] in sent then [] else [u[0]]) + Unsent(u[1..], sent)
  }

  /** The adapter's success handler as written: `clear()` empties the whole cache, including
      whatever was registered while the request was in flight. */
  function CompleteFlushAsWritten(t: Table): (r: Table)
    ensures r == t.(recordsUpdates := r.recordsUpdates)
    ensures forall rec :: PendingKind(r.recordsUpdates, rec).None?
  {
    t.(recordsUpdates := Clear())
  }

  /** The success handler as evidently intended: only the entries that were sent leave the
      cache; an entry registered or changed while the request was in flight stays pending.
      When nothing happened in between, the cache ends empty, as with `clear()`. */
  function CompleteFlush(t: Table, sent: Updates): (r: Table)
    ensures r == t.(recordsUpdates := r.recordsUpdates)
    ensures forall e :: e in r.recordsUpdates <==> e in t.recordsUpdates && e !in sent
    ensures sent == t.recordsUpdates ==> r.recordsUpdates == []
  {
    t.(recordsUpdates := Unsent(t.recordsUpdates, sent))
  }

  /** A record whose pending entry was not part of the request keeps its pending kind once
      the flush completes. */
  lemma {:induction false} CompleteFlushKeepsUnsent(u: Updates, sent: Updates, rec: RecordId)
    requires GetUpdateIndex(u, rec).Some? && u[GetUpdateIndex(u, rec).value] !in sent
    ensures PendingKind(Unsent(u, sent), rec) == PendingKind(u, rec)
  {
    var rest := Unsent(u[1..], sent);
    if u[0].record == rec {
      assert Unsent(u, sent) == [u[0]] + rest;
    } else {
      CompleteFlushKeepsUnsent(u[1..], sent, rec);
      PendingKindTail(u, rec);
      if u[0] !in sent {
        assert Unsent(u, sent) == [u[0]] + rest;
        assert Unsent(u, sent)[1..] == rest;
        PendingKindTail(Unsent(u, sent), rec);
      } else {
        assert Unsent(u, sent) == rest;
      }
    }
  }

  /** An update registered while a flush is in flight: completing the flush as written forgets
      it although it was never sent, while the intended completion keeps it pending. */
  lemma FlushClearsInFlightUpdates(t: Table, a: RecordId, b: RecordId)
    requires a != b && t.recordsUpdates == [RecordUpdate(a, UpdateKind.Update)]
    ensures var sent := t.recordsUpdates;
            var during := Update(t, b).table;
            && PendingKind(during.recordsUpdates, b) == Some(UpdateKind.Update)
            && PendingKind(CompleteFlushAsWritten(during).recordsUpdates, b).None?
            && PendingKind(CompleteFlush(during, sent).recordsUpdates, b) == Some(UpdateKind.Update)
  {
    var sent := t.recordsUpdates;
    var during := Update(t, b).table;
    assert GetUpdateIndex(sent, b).None?;
    assert during.recordsUpdates == sent + [RecordUpdate(b, UpdateKind.Update)];
    assert GetUpdateIndex(during.recordsUpdates, b) == Some(1);
    assert RecordUpdate(b, UpdateKind.Update) !in sent;
    CompleteFlushKeepsUnsent(during.recordsUpdates, sent, b);
  }

  /** `applyUpdates`: with nothing pending the adapter is never called and nothing changes. A
      pending record without a back-reference makes building the parameter list throw before
      anything is sent. Otherwise the pending updates are sent as one parameter list, each
      record serialised with its own table's meta-info (this table's for its own records); on
      success the sent entries leave the cache and every link is told the table was updated,
      on failure nothing changes. */
  function ApplyUpdates(heap: Heap, t: Table, meta: map<TableId, seq<Field>>, outcome: Outcome): (r: Flush)
    requires Known(t.recordsUpdates, heap, meta)
    requires t.id in meta && meta[t.id] == GetMetaInfo(t)
    ensures |t.recordsUpdates| == 0 ==> r == Flush(None, t, [], None)
    ensures |t.recordsUpdates| > 0 && HasOrphan(t.recordsUpdates, heap) ==>
              r == Flush(None, t, [], Some(NoBackReferenceMessage))
    ensures |t.recordsUpdates| > 0 && !HasOrphan(t.recordsUpdates, heap) ==>
              && AllResolvable(t.recordsUpdates, heap, meta)
              && r.sent == Some(UpdateParams(t.recordsUpdates, heap, meta))
    ensures |t.recordsUpdates| > 0 && !HasOrphan(t.recordsUpdates, heap) ==>
              forall i | 0 <= i < |t.recordsUpdates| && heap[t.recordsUpdates[i].record].table == Some(t.id) ::
                r.sent.value[i].data.Keys == heap[t.recordsUpdates[i].record].data.Keys * NameSet(GetMetaInfo(t))
    ensures r.error.Some? ==> r.table == t && r.notices == []
    ensures |t.recordsUpdates| > 0 && !HasOrphan(t.recordsUpdates, heap) && outcome.Failure? ==>
              r.error == Some(outcome.message)
    ensures |t.recordsUpdates| > 0 && !HasOrphan(t.recordsUpdates, heap) && outcome.Success? ==>
              && r.error.None?
              && r.table == CompleteFlush(t, t.recordsUpdates)
              && (forall rec :: PendingKind(r.table.recordsUpdates, rec).None?)
              && r.notices == NotifyLinks(t, Updated)
  {
    if |t.recordsUpdates| == 0 then Flush(None, t, [], None)
    else if HasOrphan(t.recordsUpdates, heap) then Flush(None, t, [], Some(NoBackReferenceMessage))
    else
      var params := UpdateParams(t.recordsUpdates, heap, meta);
      match outcome
      case Failure(message) => Flush(Some(params), t, [], Some(message))
      case Success =>
        var t' := CompleteFlush(t, t.recordsUpdates);
        Flush(Some(params), t', NotifyLinks(t', Updated), None)
  }
}

=== FILE: data_table_set.dfy ===
/** A data set of several named tables sharing one adapter (`DataTableSet` in src/dataset.ts),
    with the combined flush its adapter builds. */
module DataTableSet {
  import opened Base
  import opened RecordsUpdates
  import opened DataTable

  datatype TableSet = TableSet(tables: seq<Table>)

  /** Position of the first table called `name`. */
  function IndexByName(tables: seq<Table>, name: string): (r: Option<nat>)
    ensures r.Some? ==> r.value < |tables| && tables[r.value].tableName == name
    ensures r.Some? ==> forall j | 0 <= j < r.value :: tables[j].tableName != name
    ensures r.None? ==> forall j | 0 <= j < |tables| :: tables[j].tableName != name
  {
    if |tables| == 0 then None
    else if tables[0].tableName == name then Some(0)
    else
      match IndexByName(tables[1..], name)
      case None => None
      case Some(i) => Some(i + 1)
  }

  /** `tableByName`: the first table with that name, and nothing exactly when no table has it. */
  function TableByName(s: TableSet, name: string): (r: Option<Table>)
    ensures r.None? <==> forall i | 0 <= i < |s.tables| :: s.tables[i].tableName != name
    ensures r.Some? ==> r.value.tableName == name
    ensures r.Some? ==> exists i | 0 <= i < |s.tables| ::
              s.tables[i] == r.value && forall j | 0 <= j < i :: s.tables[j].tableName != name
  {
    match IndexByName(s.tables, name)
    case None => None
    case Some(i) => Some(s.tables[i])
  }

  ghost predicate DistinctIds(tables: seq<Table>)
  {
    forall i, j | 0 <= i < j < |tables| :: tables[i].id != tables[j].id
  }

  ghost predicate DistinctNames(tables: seq<Table>)
  {
    forall i, j | 0 <= i < j < |tables| :: tables[i].tableName != tables[j].tableName
  }

  /** The meta-info each table of the set currently reports, by table identity; it is what a
      pending record's back-reference resolves to. */
  function MetaMap(tables: seq<Table>): (meta: map<TableId, seq<Field>>)
    ensures meta.Keys == set i | 0 <= i < |tables| :: tables[i].id
  {
    if |tables| == 0 then map[]
    else
      var init := tables[..|tables| - 1];
      var last := tables[|tables| - 1];
      assert (set i | 0 <= i < |tables| :: tables[i].id) == (set i | 0 <= i < |init| :: init[i].id) + {last.id} by {
        assert forall i | 0 <= i < |init| :: init[i] == tables[i];
      }
      MetaMap(init)[last.id := GetMetaInfo(last)]
  }

  /** With distinct identities, every table's back-reference resolves to its own meta-info. */
  lemma {:induction false} MetaMapValues(tables: seq<Table>, i: nat)
    requires DistinctIds(tables)
    requires i < |tables|
    ensures MetaMap(tables)[tables[i].id] == GetMetaInfo(tables[i])
  {
    var init := tables[..|tables| - 1];
    if i < |init| {
      assert init[i] == tables[i];
      assert DistinctIds(init) by {
        assert forall j | 0 <= j < |init| :: init[j] == tables[j];
      }
      MetaMapValues(init, i);
    }
  }

  /** `meta` knows every table of the set under its identity, with the meta-info that table
      reports: the tables pending records point at answer `getMetaInfo` as they do. */
  ghost predicate Agrees(tables: seq<Table>, meta: map<TableId, seq<Field>>)
  {
    forall i | 0 <= i < |tables| :: tables[i].id in meta && meta[tables[i].id] == GetMetaInfo(tables[i])
  }

  /** A set whose tables have distinct identities can resolve its own back-references. */
  lemma MetaMapAgrees(tables: seq<Table>)
    requires DistinctIds(tables)
    ensures Agrees(tables, MetaMap(tables))
  {
    forall i | 0 <= i < |tables| ensures MetaMap(tables)[tables[i].id] == GetMetaInfo(tables[i]) {
      MetaMapValues(tables, i);
    }
  }

  ghost predicate AllKnown(tables: seq<Table>, heap: Heap, meta: map<TableId, seq<Field>>)
  {
    forall i | 0 <= i < |tables| :: Known(tables[i].recordsUpdates, heap, meta)
  }

  /** Some table of the set has a pending record without a back-reference. */
  predicate AnyOrphan(tables: seq<Table>, heap: Heap)
  {
    exists i | 0 <= i < |tables| :: HasOrphan(tables[i].recordsUpdates, heap)
  }

  /** Every table of the set can serialise all its pending records. */
  ghost predicate AllResolve(tables: seq<Table>, heap: Heap, meta: map<TableId, seq<Field>>)
  {
    forall i | 0 <= i < |tables| :: AllResolvable(tables[i].recordsUpdates, heap, meta)
  }

  /** The tables that have something to send. */
  function PendingNames(tables: seq<Table>): set<string>
  {
    set i | 0 <= i < |tables| && |tables[i].recordsUpdates| > 0 :: tables[i].tableName
  }

  /** The pending names of a list grow by the last table's name when it has something pending. */
  lemma PendingNamesSnoc(tables: seq<Table>)
    requires |tables| > 0
    ensures var last := tables[|tables| - 1];
            PendingNames(tables) == PendingNames(tables[..|tables| - 1]) + (if |last.recordsUpdates| > 0 then {last.tableName} else {})
  {
  }

  /** The combined parameter object, built table by table: a table's parameter list is stored
      under its name only when it has pending updates. */
  function Payload(tables: seq<Table>, heap: Heap, meta: map<TableId, seq<Field>>): (p: map<string, seq<Param>>)
    requires AllResolve(tables, heap, meta)
    ensures p.Keys == PendingNames(tables)
  {
    if |tables| == 0 then map[]
    else
      var init := tables[..|tables| - 1];
      var last := tables[|tables| - 1];
      PendingNamesSnoc(tables);
      var p := Payload(init, heap, meta);
      if |last.recordsUpdates| > 0 then p[last.tableName := UpdateParams(last.recordsUpdates, heap, meta)] else p
  }

  /** With distinct names, the payload carries each pending table's own parameter list. */
  lemma {:induction false} PayloadValues(tables: seq<Table>, heap: Heap, meta: map<TableId, seq<Field>>, i: nat)
    requires AllResolve(tables, heap, meta)
    requires DistinctNames(tables)
    requires i < |tables| && |tables[i].recordsUpdates| > 0
    ensures Payload(tables, heap, meta)[tables[i].tableName] == UpdateParams(tables[i].recordsUpdates, heap, meta)
  {
    var init := tables[..|tables| - 1];
    var last := tables[|tables| - 1];
    PendingNamesSnoc(tables);
    if i < |init| {
      assert init[i] == tables[i];
      assert tables[i].tableName != last.tableName;
      assert AllResolve(init, heap, meta) && DistinctNames(init) by {
        assert forall j | 0 <= j < |init| :: init[j] == tables[j];
      }
      PayloadValues(init, heap, meta, i);
    }
  }

  /** The payload the set's adapter sends: keyed by the names of exactly the tables with
      pending updates, each carrying that table's parameter list. A record may belong to a
      table outside the set; it is serialised with that table's meta-info. */
  function FlushPayload(s: TableSet, heap: Heap, meta: map<TableId, seq<Field>>): (p: map<string, seq<Param>>)
    requires Agrees(s.tables, meta) && AllKnown(s.tables, heap, meta) && !AnyOrphan(s.tables, heap)
    ensures AllResolve(s.tables, heap, meta)
    ensures p.Keys == PendingNames(s.tables)
    ensures DistinctNames(s.tables) ==> forall i | 0 <= i < |s.tables| && |s.tables[i].recordsUpdates| > 0 ::
              p[s.tables[i].tableName] == UpdateParams(s.tables[i].recordsUpdates, heap, meta)
  {
    assert AllResolve(s.tables, heap, meta) by {
      forall i | 0 <= i < |s.tables| ensures AllResolvable(s.tables[i].recordsUpdates, heap, meta) {
        assert !HasOrphan(s.tables[i].recordsUpdates, heap);
      }
    }
    var p := Payload(s.tables, heap, meta);
    assert DistinctNames(s.tables) ==> forall i | 0 <= i < |s.tables| && |s.tables[i].recordsUpdates| > 0 ::
             p[s.tables[i].tableName] == UpdateParams(s.tables[i].recordsUpdates, heap, meta) by {
      if DistinctNames(s.tables) {
        forall i | 0 <= i < |s.tables| && |s.tables[i].recordsUpdates| > 0
          ensures p[s.tables[i].tableName] == UpdateParams(s.tables[i].recordsUpdates, heap, meta)
        {
          PayloadValues(s.tables, heap, meta, i);
        }
      }
    }
    p
  }

  /** Every link of every table, table by table. */
  function AllLinks(tables: seq<Table>): seq<LinkId>
  {
    if |tables| == 0 then [] else tables[0].links + AllLinks(tables[1..])
  }

  /** Each table notifies its links in turn; that is one notification of all of them in order. */
  function NotifyAll(tables: seq<Table>, eventType: EventType): (notices: seq<Notice>)
    ensures notices == Deliver(AllLinks(tables), eventType)
  {
    if |tables| == 0 then []
    else
      DeliverAppend(tables[0].links, AllLinks(tables[1..]), eventType);
      NotifyLinks(tables[0], eventType) + NotifyAll(tables[1..], eventType)
  }

  /** The result of the set's flush: what was sent (nothing when building the payload threw),
      the set afterwards, the link calls and the rejecting error. */
  datatype SetFlush = SetFlush(sent: Option<map<string, seq<Param>>>, tableSet: TableSet, notices: seq<Notice>, error: Option<string>)

  /** Every table's flush completed: the entries it sent leave its cache, which is all of them,
      and nothing else about any table changes. */
  function ClearAll(tables: seq<Table>): (r: seq<Table>)
    ensures |r| == |tables|
    ensures forall i | 0 <= i < |tables| :: r[i] == tables[i].(recordsUpdates := r[i].recordsUpdates)
    ensures forall i | 0 <= i < |tables| :: r[i].recordsUpdates == Clear()
  {
    seq(|tables|, i requires 0 <= i < |tables| => CompleteFlush(tables[i], tables[i].recordsUpdates))
  }

  /** `applyUpdates` of the set: the combined payload is always sent, even when it is empty,
      unless a pending record without a back-reference makes building it throw, in which case
      nothing is sent and nothing changes. On success every table's cache is emptied and then
      every table tells its links it was updated; on failure every table keeps its pending
      updates and no link is called. */
  function ApplyUpdates(s: TableSet, heap: Heap, meta: map<TableId, seq<Field>>, outcome: Outcome): (r: SetFlush)
    requires Agrees(s.tables, meta) && AllKnown(s.tables, heap, meta)
    ensures AnyOrphan(s.tables, heap) ==> r == SetFlush(None, s, [], Some(NoBackReferenceMessage))
    ensures !AnyOrphan(s.tables, heap) ==> r.sent == Some(FlushPayload(s, heap, meta))
    ensures !AnyOrphan(s.tables, heap) && outcome.Failure? ==>
              r.tableSet == s && r.notices == [] && r.error == Some(outcome.message)
    ensures !AnyOrphan(s.tables, heap) && outcome.Success? ==>
              && r.error.None?
              && |r.tableSet.tables| == |s.tables|
              && (forall i | 0 <= i < |s.tables| ::
                    r.tableSet.tables[i] == s.tables[i].(recordsUpdates := r.tableSet.tables[i].recordsUpdates))
              && (forall i | 0 <= i < |s.tables| :: forall rec :: PendingKind(r.tableSet.tables[i].recordsUpdates, rec).None?)
              && r.notices == Deliver(AllLinks(s.tables), Updated)
  {
    if AnyOrphan(s.tables, heap) then SetFlush(None, s, [], Some(NoBackReferenceMessage))
    else
      var sent := FlushPayload(s, heap, meta);
      match outcome
      case Failure(message) => SetFlush(Some(sent), s, [], Some(message))
      case Success => SetFlush(Some(sent), TableSet(ClearAll(s.tables)), NotifyAll(s.tables, Updated), None)
  }

  // Filling through the set's adapter

  /** One member of the set adapter's fill response, with the key it is stored under: an object
      and its `records` member (none when the object has no own `records` property), or a
      `null` or `undefined` value, on which the loop's `hasOwnProperty` call throws. */
  datatype FillEntry = FillEntry(key: string, records: Option<RecordsPayload>) | NullMember(key: string)

  /** What the set adapter's `execute('fill')` came back with: a failure, or the response
      object's members in enumeration order. */
  datatype SetFillResponse = SetFillFailed(message: string) | SetReceived(entries: seq<FillEntry>)

  /** The keys of one response object are distinct. */
  ghost predicate DistinctKeys(entries: seq<FillEntry>)
  {
    forall k, l | 0 <= k < l < |entries| :: entries[k].key != entries[l].key
  }

  /** The adapter's fill result: the heap and tables afterwards and the rejecting error. */
  datatype SetFilled = SetFilled(heap: Heap, tables: seq<Table>, error: Option<string>)

  /** The error raised when a member is handed to an unset table. */
  const UndefinedTableMessage := "TypeError: dataTable is undefined"

  /** The error raised when the loop calls `hasOwnProperty` on a `null` or `undefined` member. */
  const NullMemberMessage := "TypeError: Cannot read properties of null (reading 'hasOwnProperty')"

  /** A response member that carries `records` and whose key names no table of the set. */
  predicate Unknown(tables: seq<Table>, e: FillEntry)
  {
    e.FillEntry? && e.records.Some? && IndexByName(tables, e.key).None?
  }

  /** A member on which the loop as written throws: a `null` or `undefined` one, or one that
      reaches the call on the unset `dataTable`. */
  predicate Faulty(tables: seq<Table>, e: FillEntry)
  {
    e.NullMember? || Unknown(tables, e)
  }

  /** The error the loop as written throws on a faulty member. */
  function FaultMessage(e: FillEntry): string
  {
    if e.NullMember? then NullMemberMessage else UndefinedTableMessage
  }

  /** Position of the first member on which the loop as written throws. */
  function FirstFault(tables: seq<Table>, entries: seq<FillEntry>): (r: Option<nat>)
    ensures r.Some? ==> r.value < |entries| && Faulty(tables, entries[r.value])
    ensures r.Some? ==> forall j | 0 <= j < r.value :: !Faulty(tables, entries[j])
    ensures r.None? <==> forall k | 0 <= k < |entries| :: !Faulty(tables, entries[k])
  {
    if |entries| == 0 then None
    else if Faulty(tables, entries[0]) then Some(0)
    else
      assert forall k | 1 <= k < |entries| :: entries[k] == entries[1..][k - 1];
      match FirstFault(tables, entries[1..])
      case None => None
      case Some(k) => Some(k + 1)
  }

  /** The set adapter's `fill` as written. Its `dataTable` is never assigned, so the guard's
      comparison `dataTable === tableByName(key)` holds exactly when the key names no table,
      and the call on the unset `dataTable` then throws; a key that names a table is skipped.
      No table is ever filled. The call rejects at the first member that is `null` or
      `undefined`, or that carries `records` under an unknown key, with that member's error. */
  function AdapterFillAsWritten(heap: Heap, tables: seq<Table>, response: SetFillResponse): (r: SetFilled)
    ensures r.heap == heap && r.tables == tables
    ensures response.SetFillFailed? ==> r.error == Some(response.message)
    ensures response.SetReceived? ==>
              (r.error.None? <==> forall k | 0 <= k < |response.entries| :: !Faulty(tables, response.entries[k]))
    ensures response.SetReceived? ==>
              forall k | 0 <= k < |response.entries| && Faulty(tables, response.entries[k]) &&
                         (forall j | 0 <= j < k :: !Faulty(tables, response.entries[j])) ::
                r.error == Some(FaultMessage(response.entries[k]))
  {
    match response
    case SetFillFailed(message) => SetFilled(heap, tables, Some(message))
    case SetReceived(entries) =>
      match FirstFault(tables, entries)
      case None => SetFilled(heap, tables, None)
      case Some(k) => SetFilled(heap, tables, Some(FaultMessage(entries[k])))
  }

  /** `t` holds exactly what `fillRecords` leaves from `records` when run on the table
      `before`: one new record per row, in order, distinct, allocated at or after `lo`, each
      built from its row and stored in `heap`; the fields of the first row; nothing pending. */
  ghost predicate Refilled(heap: Heap, t: Table, before: Table, lo: nat, records: RecordsPayload)
  {
    var rows := IncomingRows(records);
    && |t.records| == |rows|
    && (forall j | 0 <= j < |rows| ::
          lo <= t.records[j] < |heap| && heap[t.records[j]] == Instantiate(before, rows[j]))
    && (forall j, j' | 0 <= j < j' < |rows| :: t.records[j] != t.records[j'])
    && t.fields == (if |rows| > 0 then ObjectFields(rows[0]) else [])
    && forall rec :: PendingKind(t.recordsUpdates, rec).None?
  }

  /** Records stay where they are when the heap grows, so a refill stays a refill. */
  lemma RefilledGrows(heap: Heap, heap': Heap, t: Table, before: Table, lo: nat, records: RecordsPayload)
    requires Refilled(heap, t, before, lo, records)
    requires |heap| <= |heap'| && heap'[..|heap|] == heap
    ensures Refilled(heap', t, before, lo, records)
  {
    var rows := IncomingRows(records);
    forall j | 0 <= j < |rows| ensures heap'[t.records[j]] == heap[t.records[j]] {
      assert heap'[t.records[j]] == heap'[..|heap|][t.records[j]];
    }
  }

  /** Records allocated at or after one heap position are allocated at or after any earlier one. */
  lemma RefilledLower(heap: Heap, t: Table, before: Table, lo: nat, lo': nat, records: RecordsPayload)
    requires Refilled(heap, t, before, lo', records) && lo <= lo'
    ensures Refilled(heap, t, before, lo, records)
  {
  }

  /** Which table a name finds depends only on the tables' names. */
  lemma IndexByNameOnNames(a: seq<Table>, b: seq<Table>, name: string)
    requires |a| == |b|
    requires forall i | 0 <= i < |a| :: a[i].tableName == b[i].tableName
    ensures IndexByName(a, name) == IndexByName(b, name)
  {
  }

  /** Some member of the response is `null` or `undefined`. */
  predicate HasNull(entries: seq<FillEntry>)
  {
    exists k | 0 <= k < |entries| :: entries[k].NullMember?
  }

  /** The members of a response handed, one after the other, to the table their key names,
      until a `null` or `undefined` member throws; the tables filled before it stay filled.
      Every table keeps its name, identity and links. */
  function FillEntries(heap: Heap, tables: seq<Table>, entries: seq<FillEntry>): (r: SetFilled)
    ensures r.error.Some? <==> HasNull(entries)
    ensures r.error.Some? ==> r.error == Some(NullMemberMessage)
    ensures |r.tables| == |tables|
    ensures |heap| <= |r.heap| && r.heap[..|heap|] == heap
    ensures forall i | 0 <= i < |tables| ::
              r.tables[i] == tables[i].(fields := r.tables[i].fields, records := r.tables[i].records,
                                        recordsUpdates := r.tables[i].recordsUpdates)
    decreases |entries|
  {
    if |entries| == 0 then SetFilled(heap, tables, None)
    else
      var e := entries[0];
      assert forall k | 1 <= k < |entries| :: entries[k] == entries[1..][k - 1];
      if e.NullMember? then SetFilled(heap, tables, Some(NullMemberMessage))
      else
      match FillTarget(tables, e)
      case None => FillEntries(heap, tables, entries[1..])
      case Some(i) =>
        var f := FillRecords(heap, tables[i], e.records.value);
        var r := FillEntries(f.heap, tables[i := f.table], entries[1..]);
        assert r.heap[..|heap|] == heap by {
          assert r.heap[..|f.heap|][..|heap|] == f.heap[..|heap|];
        }
        r
  }

  /** The table a response member is handed to: the first one with its key, when it carries
      `records`. */
  function FillTarget(tables: seq<Table>, e: FillEntry): (r: Option<nat>)
    ensures r.Some? ==> e.FillEntry? && e.records.Some? && r.value < |tables|
  {
    if e.FillEntry? && e.records.Some? then IndexByName(tables, e.key) else None
  }

  /** Filling one table renames none, so every key finds the same table afterwards. */
  lemma FillTargetAfterFill(tables: seq<Table>, i: nat, t: Table, e: FillEntry)
    requires i < |tables| && t.tableName == tables[i].tableName
    ensures FillTarget(tables[i := t], e) == FillTarget(tables, e)
  {
    IndexByNameOnNames(tables[i := t], tables, e.key);
  }

  /** A table that no member names is left exactly as it was. */
  lemma {:induction false} FillEntriesKeepsUnnamed(heap: Heap, tables: seq<Table>, entries: seq<FillEntry>, i: nat)
    requires i < |tables|
    requires forall k | 0 <= k < |entries| :: FillTarget(tables, entries[k]) != Some(i)
    ensures FillEntries(heap, tables, entries).tables[i] == tables[i]
    decreases |entries|
  {
    if |entries| > 0 && entries[0].FillEntry? {
      var e := entries[0];
      var rest := entries[1..];
      assert forall k | 0 <= k < |rest| :: rest[k] == entries[k + 1];
      match FillTarget(tables, e)
      case None =>
        FillEntriesKeepsUnnamed(heap, tables, rest, i);
      case Some(j) =>
        var f := FillRecords(heap, tables[j], e.records.value);
        var next := tables[j := f.table];
        forall k | 0 <= k < |rest| ensures FillTarget(next, rest[k]) != Some(i) {
          FillTargetAfterFill(tables, j, f.table, rest[k]);
        }
        FillEntriesKeepsUnnamed(f.heap, next, rest, i);
    }
  }

  /** The table the first member names ends up holding new records built from that member's
      rows, when no later member names it again. */
  lemma FillEntriesRefillsFirst(heap: Heap, tables: seq<Table>, entries: seq<FillEntry>, i: nat)
    requires DistinctKeys(entries)
    requires |entries| > 0 && FillTarget(tables, entries[0]) == Some(i)
    ensures var r := FillEntries(heap, tables, entries);
            Refilled(r.heap, r.tables[i], tables[i], |heap|, entries[0].records.value)
  {
    var e := entries[0];
    var rest := entries[1..];
    var f := FillRecords(heap, tables[i], e.records.value);
    var next := tables[i := f.table];
    assert FillEntries(heap, tables, entries) == FillEntries(f.heap, next, rest);
    forall l | 0 <= l < |rest| ensures FillTarget(next, rest[l]) != Some(i) {
      FillTargetAfterFill(tables, i, f.table, rest[l]);
      assert rest[l] == entries[l + 1];
    }
    FillEntriesKeepsUnnamed(f.heap, next, rest, i);
    var rows := IncomingRows(e.records.value);
    assert forall j | 0 <= j < |rows| :: f.table.records[j] == |heap| + j;
    assert Refilled(f.heap, f.table, tables[i], |heap|, e.records.value);
    RefilledGrows(f.heap, FillEntries(f.heap, next, rest).heap, f.table, tables[i], |heap|, e.records.value);
  }

  /** With distinct keys, every table a member names ends up holding new records built from
      that member's rows, unless a `null` or `undefined` member came first. */
  lemma {:induction false} FillEntriesRefills(heap: Heap, tables: seq<Table>, entries: seq<FillEntry>, k: nat, i: nat)
    requires DistinctKeys(entries)
    requires k < |entries| && FillTarget(tables, entries[k]) == Some(i)
    requires forall l | 0 <= l < k :: entries[l].FillEntry?
    ensures var r := FillEntries(heap, tables, entries);
            Refilled(r.heap, r.tables[i], tables[i], |heap|, entries[k].records.value)
    decreases |entries|
  {
    if k == 0 {
      FillEntriesRefillsFirst(heap, tables, entries, i);
    } else {
      var e := entries[0];
      var rest := entries[1..];
      assert forall l | 0 <= l < |rest| :: rest[l] == entries[l + 1];
      match FillTarget(tables, e)
      case None =>
        assert FillEntries(heap, tables, entries) == FillEntries(heap, tables, rest);
        FillEntriesRefills(heap, tables, rest, k - 1, i);
      case Some(j) =>
        var f := FillRecords(heap, tables[j], e.records.value);
        var next := tables[j := f.table];
        assert FillEntries(heap, tables, entries) == FillEntries(f.heap, next, rest);
        FillTargetAfterFill(tables, j, f.table, entries[k]);
        assert e.key != entries[k].key;
        assert next[i] == tables[i];
        FillEntriesRefills(f.heap, next, rest, k - 1, i);
        var r := FillEntries(f.heap, next, rest);
        RefilledLower(r.heap, r.tables[i], tables[i], |heap|, |f.heap|, entries[k].records.value);
    }
  }

  /** The set adapter's `fill` as evidently intended (`dataTable = tableByName(key)`): each
      member carrying `records` resynchronises the table of that name, if the set has one. A
      `null` or `undefined` member still throws, after the members before it were loaded. A
      table that no member names is left as it was; with distinct keys, a named table reached
      before any such member holds new records built from its member's rows, with nothing
      pending. Names, identities and links never change, and a failed call changes nothing. */
  function AdapterFill(heap: Heap, tables: seq<Table>, response: SetFillResponse): (r: SetFilled)
    ensures response.SetFillFailed? ==> r == SetFilled(heap, tables, Some(response.message))
    ensures response.SetReceived? ==>
              && (r.error.Some? <==> HasNull(response.entries))
              && (r.error.Some? ==> r.error == Some(NullMemberMessage))
              && |r.tables| == |tables|
              && |heap| <= |r.heap| && r.heap[..|heap|] == heap
              && forall i | 0 <= i < |tables| ::
                   r.tables[i] == tables[i].(fields := r.tables[i].fields, records := r.tables[i].records,
                                             recordsUpdates := r.tables[i].recordsUpdates)
    ensures response.SetReceived? ==>
              forall i | 0 <= i < |tables| && (forall k | 0 <= k < |response.entries| :: FillTarget(tables, response.entries[k]) != Some(i)) ::
                r.tables[i] == tables[i]
    ensures response.SetReceived? && DistinctKeys(response.entries) ==>
              forall k, i | 0 <= k < |response.entries| && FillTarget(tables, response.entries[k]) == Some(i) &&
                            (forall l | 0 <= l < k :: response.entries[l].FillEntry?) ::
                Refilled(r.heap, r.tables[i], tables[i], |heap|, response.entries[k].records.value)
  {
    match response
    case SetFillFailed(message) => SetFilled(heap, tables, Some(message))
    case SetReceived(entries) =>
      var filled := FillEntries(heap, tables, entries);
      assert forall i | 0 <= i < |tables| && (forall k | 0 <= k < |entries| :: FillTarget(tables, entries[k]) != Some(i)) ::
               filled.tables[i] == tables[i] by {
        forall i | 0 <= i < |tables| && (forall k | 0 <= k < |entries| :: FillTarget(tables, entries[k]) != Some(i))
          ensures filled.tables[i] == tables[i]
        {
          FillEntriesKeepsUnnamed(heap, tables, entries, i);
        }
      }
      assert DistinctKeys(entries) ==>
               forall k, i | 0 <= k < |entries| && FillTarget(tables, entries[k]) == Some(i) &&
                             (forall l | 0 <= l < k :: entries[l].FillEntry?) ::
                 Refilled(filled.heap, filled.tables[i], tables[i], |heap|, entries[k].records.value) by {
        if DistinctKeys(entries) {
          forall k, i | 0 <= k < |entries| && FillTarget(tables, entries[k]) == Some(i) &&
                        (forall l | 0 <= l < k :: entries[l].FillEntry?)
            ensures Refilled(filled.heap, filled.tables[i], tables[i], |heap|, entries[k].records.value)
          {
            FillEntriesRefills(heap, tables, entries, k, i);
          }
        }
      }
      filled
  }

  /** A response that fills the set's only table: the adapter as written leaves the table
      empty and reports success, while the intended adapter loads the rows. */
  lemma AdapterFillAsWrittenSkipsKnownTable(heap: Heap, t: Table, rows: seq<Row>)
    requires |t.records| == 0 && |rows| > 0
    ensures var response := SetReceived([FillEntry(t.tableName, Some(Rows(rows)))]);
            && AdapterFillAsWritten(heap, [t], response) == SetFilled(heap, [t], None)
            && |AdapterFill(heap, [t], response).tables[0].records| == |rows|
  {
    var response := SetReceived([FillEntry(t.tableName, Some(Rows(rows)))]);
    assert IndexByName([t], t.tableName) == Some(0);
    assert !Faulty([t], response.entries[0]);
    assert FirstFault([t], response.entries).None?;
    assert FillTarget([t], response.entries[0]) == Some(0);
    FillEntriesRefills(heap, [t], response.entries, 0, 0);
  }

  /** A `null` member behind one that fills the set's only table: the intended adapter loads
      the table and still rejects, while the adapter as written rejects having loaded nothing. */
  lemma NullMemberRejectsAfterLoading(heap: Heap, t: Table, rows: seq<Row>, key: string)
    requires |rows| > 0 && key != t.tableName
    ensures var response := SetReceived([FillEntry(t.tableName, Some(Rows(rows))), NullMember(key)]);
            var r := AdapterFill(heap, [t], response);
            && r.error == Some(NullMemberMessage)
            && |r.tables[0].records| == |rows|
            && AdapterFillAsWritten(heap, [t], response) == SetFilled(heap, [t], Some(NullMemberMessage))
  {
    var response := SetReceived([FillEntry(t.tableName, Some(Rows(rows))), NullMember(key)]);
    assert IndexByName([t], t.tableName) == Some(0);
    assert FillTarget([t], response.entries[0]) == Some(0);
    assert HasNull(response.entries) by {
      assert response.entries[1].NullMember?;
    }
    assert !Faulty([t], response.entries[0]) && Faulty([t], response.entries[1]);
    FillEntriesRefills(heap, [t], response.entries, 0, 0);
  }

  /** Links are untouched by filling, so the set notifies the same links before and after. */
  lemma {:induction false} AllLinksSameLinks(a: seq<Table>, b: seq<Table>)
    requires |a| == |b|
    requires forall i | 0 <= i < |a| :: a[i].links == b[i].links
    ensures AllLinks(a) == AllLinks(b)
  {
    if |a| > 0 {
      AllLinksSameLinks(a[1..], b[1..]);
    }
  }

  /** The result of the set's `fill`: heap and set afterwards, link calls, rejecting error. */
  datatype SetRefresh = SetRefresh(heap: Heap, tableSet: TableSet, notices: seq<Notice>, error: Option<string>)

  /** `fill` of the set: once the adapter has filled the named tables, every table tells its
      links it was refreshed, in table order. A failed call changes nothing and calls no link;
      a `null` or `undefined` member rejects too, keeping what was loaded before it, and calls
      no link. */
  function Fill(heap: Heap, s: TableSet, response: SetFillResponse): (r: SetRefresh)
    ensures response.SetFillFailed? ==> r == SetRefresh(heap, s, [], Some(response.message))
    ensures response.SetReceived? ==>
              && (r.error.Some? <==> HasNull(response.entries))
              && (r.error.Some? ==> r.error == Some(NullMemberMessage) && r.notices == [])
              && (r.error.None? ==> r.notices == Deliver(AllLinks(s.tables), Refreshed))
              && |r.tableSet.tables| == |s.tables|
              && |heap| <= |r.heap| && r.heap[..|heap|] == heap
    ensures response.SetReceived? ==>
              forall i | 0 <= i < |s.tables| && (forall k | 0 <= k < |response.entries| :: FillTarget(s.tables, response.entries[k]) != Some(i)) ::
                r.tableSet.tables[i] == s.tables[i]
    ensures response.SetReceived? && DistinctKeys(response.entries) ==>
              forall k, i | 0 <= k < |response.entries| && FillTarget(s.tables, response.entries[k]) == Some(i) &&
                            (forall l | 0 <= l < k :: response.entries[l].FillEntry?) ::
                Refilled(r.heap, r.tableSet.tables[i], s.tables[i], |heap|, response.entries[k].records.value)
  {
    var filled := AdapterFill(heap, s.tables, response);
    if filled.error.Some? then SetRefresh(filled.heap, TableSet(filled.tables), [], filled.error)
    else
      AllLinksSameLinks(filled.tables, s.tables);
      SetRefresh(filled.heap, TableSet(filled.tables), NotifyAll(filled.tables, Refreshed), None)
  }
}

=== FILE: records_updates.dfy ===
/** The pending-update cache of a table (`RecordsUpdates` in src/dataset.ts): at most
    one pending Insert, Update or Delete per record, kept in registration order. */
module RecordsUpdates {
  import opened Base

  /** The kinds of cached update; their numeric codes in the source are 1, 2 and 3, so none is falsy. */
  datatype UpdateKind = Delete | Update | Insert

  /** The name a kind is sent under (the enum's reverse mapping). */
  function KindName(k: UpdateKind): (name: string)
    ensures KindOfName(name) == Some(k)
  {
    match k
    case Delete => "Delete"
    case Update => "Update"
    case Insert => "Insert"
  }

  /** The kind a service-side name stands for. */
  function KindOfName(name: string): Option<UpdateKind>
  {
    if name == "Delete" then Some(Delete)
    else if name == "Update" then Some(Update)
    else if name == "Insert" then Some(Insert)
    else None
  }

  /** One cached update: a record (by identity) and the net kind pending for it. */
  datatype RecordUpdate = RecordUpdate(record: RecordId, updateType: UpdateKind)

  type Updates = seq<RecordUpdate>

  /** The cache's invariant: no record has two entries. */
  ghost predicate AtMostOnePerRecord(u: Updates)
  {
    forall i, j | 0 <= i < j < |u| :: u[i].record != u[j].record
  }

  /** Position of the entry for `rec`, searched from the front by identity. */
  function GetUpdateIndex(u: Updates, rec: RecordId): (idx: Option<nat>)
    ensures idx.Some? ==> idx.value < |u| && u[idx.value].record == rec
    ensures idx.Some? ==> forall j | 0 <= j < idx.value :: u[j].record != rec
    ensures idx.None? ==> forall j | 0 <= j < |u| :: u[j].record != rec
  {
    if |u| == 0 then None
    else if u[0].record == rec then Some(0)
    else
      match GetUpdateIndex(u[1..], rec)
      case None => None
      case Some(i) => Some(i + 1)
  }

  /** The kind pending for `rec`, if any. */
  function PendingKind(u: Updates, rec: RecordId): Option<UpdateKind>
  {
    match GetUpdateIndex(u, rec)
    case None => None
    case Some(i) => Some(u[i].updateType)
  }

  /** The entries registered before the one for `rec` (all of them when `rec` has none). */
  function Before(u: Updates, rec: RecordId): Updates
  {
    match GetUpdateIndex(u, rec)
    case None => u
    case Some(i) => u[..i]
  }

  /** The entries for records other than `rec`, in order. */
  function Others(u: Updates, rec: RecordId): Updates
  {
    if |u| == 0 then []
    else (if u[0].record == rec then [] else [u[0]]) + Others(u[1..], rec)
  }

  /** The priority rule, as a table: the net pending kind after `requested` is registered on
      top of `pending`. None as a result means the record has nothing left to send. */
  function Coalesce(pending: Option<UpdateKind>, requested: UpdateKind): Option<UpdateKind>
  {
    match (pending, requested)
    case (None, _) => Some(requested)
    case (Some(Update), _) => Some(requested)
    case (Some(Insert), Delete) => None
    case (Some(Insert), _) => Some(Insert)
    case (Some(Delete), _) => Some(Delete)
  }

  /** The cache after `addUpdate`, and the entry the call returns (nothing after a cancellation). */
  datatype Added = Added(updates: Updates, returned: Option<RecordUpdate>)

  /** `addUpdate` exactly as written: cancelling an Insert truncates the list at the record's
      entry, dropping every entry registered after it as well. */
  function AddUpdateAsWritten(u: Updates, rec: RecordId, kind: UpdateKind): (r: Added)
    ensures PendingKind(r.updates, rec) == Coalesce(PendingKind(u, rec), kind)
    ensures r.returned.None? <==> Coalesce(PendingKind(u, rec), kind).None?
    ensures r.returned.Some? ==> r.returned.value == RecordUpdate(rec, Coalesce(PendingKind(u, rec), kind).value)
    ensures Before(u, rec) <= r.updates
    ensures PendingKind(u, rec).Some? ==> |r.updates| <= |u|
    ensures PendingKind(u, rec).None? ==> r.updates == u + [RecordUpdate(rec, kind)]
    ensures Coalesce(PendingKind(u, rec), kind).None? ==> r.updates == Before(u, rec)
    ensures Coalesce(PendingKind(u, rec), kind).Some? ==> Others(r.updates, rec) == Others(u, rec)
    ensures PendingKind(u, rec).Some? && Coalesce(PendingKind(u, rec), kind).Some? ==>
              GetUpdateIndex(r.updates, rec) == GetUpdateIndex(u, rec)
    ensures PendingKind(u, rec).Some? && Coalesce(PendingKind(u, rec), kind) == PendingKind(u, rec) ==> r.updates == u
    ensures AtMostOnePerRecord(u) ==> AtMostOnePerRecord(r.updates)
  {
    match GetUpdateIndex(u, rec)
    case None =>
      // a fresh entry starts without a kind, so it takes the requested one
      var e := RecordUpdate(rec, kind);
      IndexAfterAppend(u, e);
      OthersAppend(u, [e], rec);
      Added(u + [e], Some(e))
    case Some(idx) =>
      if kind == Delete && u[idx].updateType == Insert then
        Added(u[..idx], None)
      else if u[idx].updateType == Update then
        var e := u[idx].(updateType := kind);
        ReplaceFacts(u, rec, idx, e);
        Added(u[idx := e], Some(e))
      else
        Added(u, Some(u[idx]))
  }

  /** The cancellation as written loses the pending entries of unrelated records: after
      inserting records `a` and then `b`, deleting `a` also forgets that `b` was inserted,
      while the intended cancellation keeps it. */
  lemma AsWrittenDropsLaterEntries(a: RecordId, b: RecordId)
    requires a != b
    ensures var u := [RecordUpdate(a, Insert), RecordUpdate(b, Insert)];
            && PendingKind(u, b) == Some(Insert)
            && PendingKind(AddUpdateAsWritten(u, a, Delete).updates, b) == None
            && PendingKind(AddUpdate(u, a, Delete).updates, b) == Some(Insert)
  {
    var u := [RecordUpdate(a, Insert), RecordUpdate(b, Insert)];
    assert GetUpdateIndex(u, a) == Some(0);
    assert GetUpdateIndex(u, b) == Some(1);
    assert AddUpdateAsWritten(u, a, Delete).updates == [];
    AddUpdateKeepsOthers(u, a, Delete, b);
  }

  /** `addUpdate` with the evidently intended cancellation, which removes only the record's
      own entry. */
  function AddUpdate(u: Updates, rec: RecordId, kind: UpdateKind): (r: Added)
    ensures Coalesce(PendingKind(u, rec), kind).Some? || AtMostOnePerRecord(u) ==>
              PendingKind(r.updates, rec) == Coalesce(PendingKind(u, rec), kind)
    ensures r.returned.None? <==> Coalesce(PendingKind(u, rec), kind).None?
    ensures r.returned.Some? ==> r.returned.value == RecordUpdate(rec, Coalesce(PendingKind(u, rec), kind).value)
    ensures Others(r.updates, rec) == Others(u, rec)
    ensures Before(u, rec) <= r.updates
    ensures PendingKind(u, rec).Some? ==> |r.updates| <= |u|
    ensures PendingKind(u, rec).None? ==> r.updates == u + [RecordUpdate(rec, kind)]
    ensures PendingKind(u, rec).Some? && Coalesce(PendingKind(u, rec), kind).Some? ==>
              GetUpdateIndex(r.updates, rec) == GetUpdateIndex(u, rec)
    ensures PendingKind(u, rec).Some? && Coalesce(PendingKind(u, rec), kind) == PendingKind(u, rec) ==> r.updates == u
    ensures AtMostOnePerRecord(u) ==> AtMostOnePerRecord(r.updates)
  {
    match GetUpdateIndex(u, rec)
    case None =>
      var e := RecordUpdate(rec, kind);
      IndexAfterAppend(u, e);
      OthersAppend(u, [e], rec);
      Added(u + [e], Some(e))
    case Some(idx) =>
      if kind == Delete && u[idx].updateType == Insert then
        RemovalFacts(u, rec, idx);
        Added(u[..idx] + u[idx + 1..], None)
      else if u[idx].updateType == Update then
        var e := u[idx].(updateType := kind);
        ReplaceFacts(u, rec, idx, e);
        Added(u[idx := e], Some(e))
      else
        Added(u, Some(u[idx]))
  }

  /** What removing the entry of `rec` at `idx` leaves behind. */
  lemma RemovalFacts(u: Updates, rec: RecordId, idx: nat)
    requires GetUpdateIndex(u, rec) == Some(idx)
    ensures Others(u[..idx] + u[idx + 1..], rec) == Others(u, rec)
    ensures (u[..idx] + u[idx + 1..])[..idx] == u[..idx]
    ensures AtMostOnePerRecord(u) ==> AtMostOnePerRecord(u[..idx] + u[idx + 1..])
    ensures AtMostOnePerRecord(u) ==> GetUpdateIndex(u[..idx] + u[idx + 1..], rec).None?
  {
    var rest := u[..idx] + u[idx + 1..];
    SplitAt(u, idx);
    OthersIgnoresEntry(u[..idx], u[idx], u[idx + 1..], rec);
    RemovalKeepsUnique(u, idx);
    if AtMostOnePerRecord(u) {
      forall j | 0 <= j < |rest| ensures rest[j].record != rec {
        if j < idx { assert rest[j] == u[j]; } else { assert rest[j] == u[j + 1]; }
      }
    }
  }

  /** What overwriting the entry of `rec` at `idx` in place leaves behind. */
  lemma ReplaceFacts(u: Updates, rec: RecordId, idx: nat, e: RecordUpdate)
    requires GetUpdateIndex(u, rec) == Some(idx) && e.record == rec
    ensures GetUpdateIndex(u[idx := e], rec) == Some(idx)
    ensures Others(u[idx := e], rec) == Others(u, rec)
    ensures u[idx := e][..idx] == u[..idx]
    ensures AtMostOnePerRecord(u) ==> AtMostOnePerRecord(u[idx := e])
  {
    IndexAfterReplace(u, idx, e);
    SplitAt(u, idx);
    assert u[idx := e] == u[..idx] + [e] + u[idx + 1..];
    OthersIgnoresEntry(u[..idx], e, u[idx + 1..], rec);
    OthersIgnoresEntry(u[..idx], u[idx], u[idx + 1..], rec);
  }

  /** An entry of `rec` is invisible to `Others(_, rec)`. */
  lemma OthersIgnoresEntry(a: Updates, x: RecordUpdate, b: Updates, rec: RecordId)
    requires x.record == rec
    ensures Others(a + [x] + b, rec) == Others(a + b, rec)
  {
    OthersAppend(a + [x], b, rec);
    OthersAppend(a, [x], rec);
    OthersAppend(a, b, rec);
    assert [x][1..] == [];
  }

  lemma IndexAfterAppend(u: Updates, e: RecordUpdate)
    requires GetUpdateIndex(u, e.record).None?
    ensures GetUpdateIndex(u + [e], e.record) == Some(|u|)
  {
    var v := u + [e];
    assert v[|u|] == e;
    assert forall j | 0 <= j < |u| :: v[j] == u[j];
  }

  lemma IndexAfterReplace(u: Updates, idx: nat, e: RecordUpdate)
    requires GetUpdateIndex(u, e.record) == Some(idx)
    ensures GetUpdateIndex(u[idx := e], e.record) == Some(idx)
    ensures AtMostOnePerRecord(u) ==> AtMostOnePerRecord(u[idx := e])
    ensures u[idx := e][..idx] == u[..idx]
  {
    var v := u[idx := e];
    assert forall j | 0 <= j < |u| && j != idx :: v[j] == u[j];
    FirstEntryIsFound(v, e.record, idx);
  }

  /** An entry for `rec` with no earlier one is the one `GetUpdateIndex` finds. */
  lemma FirstEntryIsFound(u: Updates, rec: RecordId, i: nat)
    requires i < |u| && u[i].record == rec
    requires forall j | 0 <= j < i :: u[j].record != rec
    ensures GetUpdateIndex(u, rec) == Some(i)
  {
  }

  lemma PendingKindTail(u: Updates, x: RecordId)
    requires |u| > 0 && u[0].record != x
    ensures PendingKind(u, x) == PendingKind(u[1..], x)
  {
  }

  lemma SplitAt(u: Updates, idx: nat)
    requires idx < |u|
    ensures u == u[..idx] + [u[idx]] + u[idx + 1..]
  {
  }

  lemma {:induction false} OthersAppend(a: Updates, b: Updates, rec: RecordId)
    ensures Others(a + b, rec) == Others(a, rec) + Others(b, rec)
  {
    if |a| == 0 {
      assert a + b == b;
    } else {
      var head := if a[0].record == rec then [] else [a[0]];
      calc {
        Others(a + b, rec);
      == { assert (a + b)[0] == a[0]; assert (a + b)[1..] == a[1..] + b; }
        head + Others(a[1..] + b, rec);
      == { OthersAppend(a[1..], b, rec); }
        head + (Others(a[1..], rec) + Others(b, rec));
      }
    }
  }

  lemma RemovalKeepsUnique(u: Updates, idx: nat)
    requires idx < |u|
    ensures AtMostOnePerRecord(u) ==> AtMostOnePerRecord(u[..idx] + u[idx + 1..])
  {
  }

  /** Removing the entries of one record does not change what is pending for any other. */
  lemma {:induction false} OthersKeepPendingKinds(u: Updates, rec: RecordId, other: RecordId)
    requires other != rec
    ensures PendingKind(Others(u, rec), other) == PendingKind(u, other)
  {
    if |u| == 0 {
    } else if u[0].record == rec {
      assert Others(u, rec) == Others(u[1..], rec);
      OthersKeepPendingKinds(u[1..], rec, other);
      PendingKindTail(u, other);
    } else {
      var o := Others(u, rec);
      assert o == [u[0]] + Others(u[1..], rec);
      assert o[1..] == Others(u[1..], rec);
      if u[0].record != other {
        OthersKeepPendingKinds(u[1..], rec, other);
        PendingKindTail(u, other);
        PendingKindTail(o, other);
      }
    }
  }

  /** Registering an update for one record never changes what is pending for another. */
  lemma AddUpdateKeepsOthers(u: Updates, rec: RecordId, kind: UpdateKind, other: RecordId)
    requires other != rec
    ensures PendingKind(AddUpdate(u, rec, kind).updates, other) == PendingKind(u, other)
  {
    OthersKeepPendingKinds(u, rec, other);
    OthersKeepPendingKinds(AddUpdate(u, rec, kind).updates, rec, other);
  }

  /** `clear`: nothing is pending for any record afterwards. */
  function Clear(): (r: Updates)
    ensures forall rec :: PendingKind(r, rec).None?
    ensures AtMostOnePerRecord(r)
  {
    []
  }

  /** One element of the parameter list sent to the service. */
  datatype Param = Param(data: FieldBag, updateType: string)

  /** The record exists and names an owning table whose meta-info is known. */
  ghost predicate Resolvable(rec: RecordId, heap: Heap, meta: map<TableId, seq<Field>>)
  {
    rec < |heap| && heap[rec].table.Some? && heap[rec].table.value in meta
  }

  ghost predicate AllResolvable(u: Updates, heap: Heap, meta: map<TableId, seq<Field>>)
  {
    forall i | 0 <= i < |u| :: Resolvable(u[i].record, heap, meta)
  }

  /** Every pending record exists, and its back-reference, when set, names a table whose
      meta-info is known. */
  ghost predicate Known(u: Updates, heap: Heap, meta: map<TableId, seq<Field>>)
  {
    forall i | 0 <= i < |u| ::
      u[i].record < |heap| && (heap[u[i].record].table.Some? ==> heap[u[i].record].table.value in meta)
  }

  /** A record without a back-reference to a table: `getUpdateParams` throws on reaching it,
      because `rec.table` is not a table. */
  predicate Orphan(rec: RecordId, heap: Heap)
  {
    rec < |heap| && heap[rec].table.None?
  }

  /** Some pending record is an orphan, so building the parameter list throws. */
  predicate HasOrphan(u: Updates, heap: Heap)
  {
    exists i | 0 <= i < |u| :: Orphan(u[i].record, heap)
  }

  /** The own fields of `bag` whose names appear in `fields`. */
  function OwnedFields(bag: FieldBag, fields: seq<Field>): FieldBag
  {
    map n | n in bag && n in NameSet(fields) :: bag[n]
  }

  function ParamOf(e: RecordUpdate, heap: Heap, meta: map<TableId, seq<Field>>): Param
    requires Resolvable(e.record, heap, meta)
  {
    var rec := heap[e.record];
    Param(OwnedFields(rec.data, meta[rec.table.value]), KindName(e.updateType))
  }

  /** The parameter list for the pending updates: one element per entry, in list order, with the
      kind's name and the record's values for the meta-info fields it actually owns. The meta-info
      is that of each record's own table, looked up through its back-reference. */
  function UpdateParams(u: Updates, heap: Heap, meta: map<TableId, seq<Field>>): (params: seq<Param>)
    requires AllResolvable(u, heap, meta)
    ensures |params| == |u|
    ensures forall i | 0 <= i < |u| :: params[i] == ParamOf(u[i], heap, meta)
    ensures forall i | 0 <= i < |u| :: KindOfName(params[i].updateType) == Some(u[i].updateType)
    ensures forall i | 0 <= i < |u| ::
              var rec := heap[u[i].record];
              && params[i].data.Keys == rec.data.Keys * NameSet(meta[rec.table.value])
              && forall n | n in params[i].data :: params[i].data[n] == rec.data[n]
  {
    if |u| == 0 then []
    else [ParamOf(u[0], heap, meta)] + UpdateParams(u[1..], heap, meta)
  }

  /** `getUpdateParams`, loop for loop. */
  method GetUpdateParams(u: Updates, heap: Heap, meta: map<TableId, seq<Field>>) returns (result: seq<Param>)
    requires AllResolvable(u, heap, meta)
    ensures result == UpdateParams(u, heap, meta)
  {
    result := [];
    for i := 0 to |u|
      invariant |result| == i
      invariant forall k | 0 <= k < i :: result[k] == ParamOf(u[k], heap, meta)
    {
      var rec := heap[u[i].record];
      var fields := meta[rec.table.value];
      var data: FieldBag := map[];
      for j := 0 to |fields|
        invariant data == OwnedFields(rec.data, fields[..j])
      {
        assert fields[..j + 1] == fields[..j] + [fields[j]];
        if fields[j].fieldName in rec.data {
          data := data[fields[j].fieldName := rec.data[fields[j].fieldName]];
        }
      }
      assert fields[..|fields|] == fields;
      result := result + [Param(data, KindName(u[i].updateType))];
    }
  }
}

=== FILE: scenarios.dfy ===
/** Concrete scenarios of the dataset layer, each a short sequence of operations with the state
    it must end in. */
module Scenarios {
  import opened Base
  import opened RecordsUpdates
  import DataTable
  import DataSetLink
  import DataTableSet

  /** A record is edited and then deleted before any flush: the Update is superseded by a
      single Delete, and the table is empty. */
  lemma UpdateThenDelete(t: DataTable.Table, a: RecordId)
    requires t.records == [a] && t.recordsUpdates == []
    ensures var t1 := DataTable.Update(t, a).table;
            var t2 := DataTable.Delete(t1, 0).table;
            && t2.records == []
            && t2.recordsUpdates == [RecordUpdate(a, UpdateKind.Delete)]
  {
  }

  /** A record is added and deleted again before any flush: nothing is left to send, and the
      table is empty again. */
  lemma AddThenDelete(heap: Heap, t: DataTable.Table)
    requires t.records == [] && t.recordsUpdates == []
    ensures var r := DataTable.Add(heap, t, None);
            var t2 := DataTable.Delete(r.table, 0).table;
            && t2.records == []
            && t2.recordsUpdates == []
  {
  }

  /** The two-table set of the flush scenario can be flushed: its back-references resolve
      and no pending record lacks one. */
  lemma OrdersSetFlushable(orders: DataTable.Table, customers: DataTable.Table, heap: Heap, a: RecordId)
    requires orders.id != customers.id
    requires orders.recordsUpdates == [RecordUpdate(a, UpdateKind.Update)] && customers.recordsUpdates == []
    requires a < |heap| && heap[a].table == Some(orders.id)
    ensures var tables := [orders, customers];
            var meta := DataTableSet.MetaMap(tables);
            && DataTableSet.Agrees(tables, meta)
            && DataTableSet.AllKnown(tables, heap, meta)
            && !DataTableSet.AnyOrphan(tables, heap)
  {
    var tables := [orders, customers];
    var meta := DataTableSet.MetaMap(tables);
    DataTableSet.MetaMapAgrees(tables);
    assert orders.id in meta by {
      assert tables[0] == orders;
    }
    assert !HasOrphan(orders.recordsUpdates, heap);
  }

  /** Two tables, only "orders" with a pending Update: the combined payload holds only an
      `orders` member. */
  lemma OrdersOnlyPayload(orders: DataTable.Table, customers: DataTable.Table, heap: Heap, a: RecordId)
    requires orders.tableName == "orders" && customers.tableName == "customers"
    requires orders.id != customers.id
    requires orders.recordsUpdates == [RecordUpdate(a, UpdateKind.Update)] && customers.recordsUpdates == []
    requires a < |heap| && heap[a].table == Some(orders.id)
    ensures var s := DataTableSet.TableSet([orders, customers]);
            var meta := DataTableSet.MetaMap(s.tables);
            && DataTableSet.Agrees(s.tables, meta)
            && DataTableSet.AllKnown(s.tables, heap, meta)
            && !DataTableSet.AnyOrphan(s.tables, heap)
            && DataTableSet.FlushPayload(s, heap, meta).Keys == {"orders"}
  {
    var s := DataTableSet.TableSet([orders, customers]);
    OrdersSetFlushable(orders, customers, heap, a);
    assert DataTableSet.PendingNames(s.tables) == {"orders"} by {
      assert s.tables[0] == orders && s.tables[1] == customers;
    }
  }

  /** The same two tables: a successful flush leaves neither table with anything pending. */
  lemma OrdersOnlyFlush(orders: DataTable.Table, customers: DataTable.Table, heap: Heap, a: RecordId)
    requires orders.tableName == "orders" && customers.tableName == "customers"
    requires orders.id != customers.id
    requires orders.recordsUpdates == [RecordUpdate(a, UpdateKind.Update)] && customers.recordsUpdates == []
    requires a < |heap| && heap[a].table == Some(orders.id)
    ensures var s := DataTableSet.TableSet([orders, customers]);
            var meta := DataTableSet.MetaMap(s.tables);
            && DataTableSet.Agrees(s.tables, meta)
            && DataTableSet.AllKnown(s.tables, heap, meta)
            && var r := DataTableSet.ApplyUpdates(s, heap, meta, Success);
               forall i, rec | 0 <= i < |r.tableSet.tables| :: PendingKind(r.tableSet.tables[i].recordsUpdates, rec).None?
  {
    OrdersSetFlushable(orders, customers, heap, a);
  }

  /** Setting a link to the table it already has, even to no table at all, makes no call: the
      source only fires `Refreshed` on an actual change of table. */
  lemma UnboundLinkStaysSilent(l: DataSetLink.Link, tables: map<TableId, DataTable.Table>)
    requires l.dataSet.None?
    ensures DataSetLink.SetDataSet(l, None, tables).notices == []
  {
  }
}

=== FILE: table_data_source.dfy ===
/** The part of the cursor source over a table (`TableDataSource` in src/dataset.ts) that the
    table layer decides: deleting the current record and re-clamping the cursor. The record list
    the source browses is the table's own, refreshed through its link during the delete. */
module TableDataSource {
  import opened Base
  import opened DataTable

  /** The table after the delete, the new cursor position (-1 when no record is left), whether
      the source announced a cursor move, and the table's link calls. */
  datatype CursorDelete = CursorDelete(table: Table, curIndex: int, cursorMoved: bool, notices: seq<Notice>)

  /** `delete` of the source: requires a current record, deletes it from the table, and moves
      the cursor back onto the new last record when it fell off the end. */
  function DeleteCurrent(t: Table, curIndex: int): (r: CursorDelete)
    requires 0 <= curIndex < |t.records|
    ensures r.table == Delete(t, curIndex).table && r.notices == Delete(t, curIndex).notices
    ensures |r.table.records| == 0 <==> r.curIndex == -1
    ensures |r.table.records| > 0 ==> 0 <= r.curIndex < |r.table.records|
    ensures r.cursorMoved <==> curIndex == |t.records| - 1
    ensures !r.cursorMoved ==> r.curIndex == curIndex
    ensures r.cursorMoved ==> r.curIndex == curIndex - 1
  {
    var m := Delete(t, curIndex);
    var n := |m.table.records|;
    if curIndex >= n then CursorDelete(m.table, n - 1, true, m.notices)
    else CursorDelete(m.table, curIndex, false, m.notices)
  }
}
